=== FILE: README.md ===
# dataframe-validator, modelled in Dafny

The `dataframe-validator` package checks a Polars data frame against a chain
of *expectations*. Every `expect_*` call evaluates one rule on a column,
appends a `ValidationResult` (column, expectation name, rendered arguments,
verdict, number of failing rows) to a result ledger, and returns the same
object, so calls chain. Two classes do this:

- `ValidatorDataFrame` (`polars_validator_frame.py`) is itself a frame. Besides
  the result ledger it keeps a *failure ledger* — the failing rows of every
  rule, each tagged in front with two provenance columns, `expectation_name`
  and `expectation_args` — and a validity flag `_is_valid`, which only ever
  goes from true to false. It implements existence, uniqueness, greater-than,
  column-A-greater-than-column-B, membership and string-length rules.
- `PolarsDataFrameValidator` (`polars_validator.py`) wraps a frame and keeps
  only the result ledger. It implements existence, uniqueness and
  greater-than; its other five expectations return the object untouched.

Both can print the result ledger sorted by column name and raise
`DataValidationError("Validation failed for k expectations")` when `k >= 1`
entries are false.

The model is organised as follows:

- `DataFrames` (`dataframe.dfy`): a frame is a list of typed columns (Int or
  String) and rows of nullable cells. Column lookup and Polars' `filter` are
  functions, and the value ordering that `gt`/`le` use is a predicate.
- `Expectations` (`expectations.dfy`): each rule is a pure function from the
  frame to a verdict and the failing rows, or to the exception the
  evaluation raises. A missing column raises `ColumnNotFound`, and a
  comparison across types raises `InvalidComparison`. On a non-String column
  the length rule raises the validators' own error. Nulls follow Polars: a
  comparison with null is null, `.all()` skips nulls and `filter` drops them.
  In `n_unique`/`is_unique`, one null equals another. A null cell's `is_in`
  is taken to be null as well.
- `Results` (`results.dfy`): the result entry, the error, the failed-entry
  count behind `throw_error_if_invalid`, and the stable sort behind
  `show_results`.
- `ValidatorFrame` (`validator_frame.dfy`): `ValidatorDataFrame` as a class
  whose methods update the two ledgers and the flag in place. Its invariant
  `Valid()` says three things. Every ledger row has the ledger's schema. The
  ledger holds exactly as many rows as the results count. A true flag means
  every recorded evaluation passed, and the converse also holds whenever the
  provenance columns can be inserted. When they cannot, a rule can lower the
  flag and then raise before it records anything.
- `PolarsValidator` (`polars_validator.dfy`): `PolarsDataFrameValidator` as a
  class over the result ledger.
- `PyText` and `StringOrder`: Python's rendering of ints, booleans, strings,
  lists and keyword dictionaries, as the argument strings use them. The
  code-point order on strings, as the sort by column name uses it.
- `Scenarios` (`scenarios.dfy`): the repository's test cases, stated as
  lemmas about the rule functions and as methods that drive one of the two
  validator classes.

Exceptions are values. A rule function returns `Result<Evaluation, Error>`,
and an `expect_*` method returns `Result<Validator, Error>`: `Success(this)`
stands for `return self` and `Failure(e)` for a raised exception.
`throw_error_if_invalid` returns an `Outcome`.

The model keeps the following behaviours exactly as the code has them:

- `throw_error_if_invalid` counts the false entries of the result ledger; it
  does not read the validity flag. A missing column is recorded as a false
  entry without touching the flag, so such a chain still reports
  `is_valid == True` and yet raises. This agrees with the method's docstring
  (`polars_validator_frame.py:151`, `polars_validator.py:121`), which speaks
  of false results and not of the flag. `ThrowErrorIfInvalid` also proves
  that a false flag implies a raise (when the provenance columns can be
  inserted).
- `expect_column_a_greater_than_column_b` records its result entry under the
  name `expect_column_value_greater_than` (line 184). The length rule tags
  its failing rows `expect_column_value_greater_than` (line 274). Both names
  are kept as written.
- In `ValidatorDataFrame`, the uniqueness rule tags its failing rows before
  it updates the flag. The other four rules update the flag first. So when
  the frame already has an `expectation_name` or `expectation_args` column
  (`insert_column` then raises), those four leave the flag updated and both
  ledgers unchanged. The uniqueness rule changes nothing.
- `allow_nulls` only shows up in the rendered arguments, and `quarantine` is
  stored but never read.

## Model

| member | source | states |
|---|---|---|
| DataFrames.Lookup | dataframe-validator/dataframe_validator/polars_validator_frame.py:64 | a column is found exactly when its name is among the frame's columns, and the index found holds that name |
| DataFrames.FilterRows | dataframe-validator/dataframe_validator/polars_validator_frame.py:75 | `filter` keeps exactly the rows the mask accepts, every copy of each: a kept row occurs as often as in the frame, a rejected one not at all |
| DataFrames.FilterRowsKeepsAll | dataframe-validator/dataframe_validator/polars_validator_frame.py:103 | a filter returns the whole frame iff every row passes the mask |
| DataFrames.FilterRowsKeepsNone | dataframe-validator/dataframe_validator/polars_validator_frame.py:103 | a filter returns no row iff no row passes the mask |
| DataFrames.FilterRowsAbsorb | dataframe-validator/dataframe_validator/polars_validator_frame.py:103 | filtering by a weaker mask first changes nothing (used to show nulls take no part) |
| DataFrames.AtMostIsNotGreater | dataframe-validator/dataframe_validator/polars_validator_frame.py:169-170 | for two values of one type, `le` holds exactly when `gt` does not |
| StringOrder.LessTrichotomy | dataframe-validator/dataframe_validator/polars_validator_frame.py:137-139 | two distinct column names are ordered one way or the other, so the sort key is total |
| StringOrder.LessTransitive | dataframe-validator/dataframe_validator/polars_validator_frame.py:137-139 | the string order used by the sort is transitive |
| StringOrder.AtMostIsNotGreater | dataframe-validator/dataframe_validator/polars_validator_frame.py:169-170 | for strings, `a <= b` exactly when not `b < a` |
| Expectations.DistinctCountBound | dataframe-validator/dataframe_validator/polars_validator_frame.py:74 | `n_unique()` never exceeds the number of rows |
| Expectations.DistinctCountIffNoRepeats | dataframe-validator/dataframe_validator/polars_validator_frame.py:74 | `n_unique() == len(df)` iff every value of the column occurs exactly once |
| Expectations.Duplicates | dataframe-validator/dataframe_validator/polars_validator_frame.py:75 | `~is_unique()` selects exactly the rows whose value, null included, occurs more than once, each as often as it occurs in the frame |
| Expectations.Unique | dataframe-validator/dataframe_validator/polars_validator_frame.py:74-75 | the uniqueness rule raises `ColumnNotFound` exactly for a missing column; its failing rows come from the frame |
| Expectations.NoDuplicatesIffAllDistinct | dataframe-validator/dataframe_validator/polars_validator_frame.py:74-75 | `n_unique() == len(df)` holds exactly when `~is_unique()` flags no row |
| Expectations.UniqueVerdict | dataframe-validator/dataframe_validator/polars_validator_frame.py:74-75 | the verdict passes iff no row is flagged; a row is flagged iff its value occurs more than once, with all its copies, so a lone null passes and two nulls both fail |
| Expectations.GreaterThan | dataframe-validator/dataframe_validator/polars_validator_frame.py:102-103 | raises `ColumnNotFound` for a missing column and `InvalidComparison` for a non-Int column, and otherwise evaluates |
| Expectations.GreaterThanVerdict | dataframe-validator/dataframe_validator/polars_validator_frame.py:102-103 | the verdict passes iff no row fails; a row fails iff its cell is non-null and at most the threshold, and appears as often as in the frame |
| Expectations.GreaterThanIgnoresNulls | dataframe-validator/dataframe_validator/polars_validator_frame.py:99-103 | dropping the null rows first leaves verdict and failing rows unchanged: nulls neither pass nor fail |
| Expectations.NotInSet | dataframe-validator/dataframe_validator/polars_validator_frame.py:204 | `filter(~is_in(values))` keeps exactly the rows whose cell is non-null and outside the list, every copy of each |
| Expectations.InSet | dataframe-validator/dataframe_validator/polars_validator_frame.py:203-204 | raises `ColumnNotFound` for a missing column; on an existing column it raises iff a listed value has another type than the column, and the error is `InvalidComparison` |
| Expectations.InSetVerdict | dataframe-validator/dataframe_validator/polars_validator_frame.py:203-204 | the verdict passes iff no row fails; a row fails iff its cell is non-null and not in the list, and appears as often as in the frame |
| Expectations.NotLongerThan | dataframe-validator/dataframe_validator/polars_validator_frame.py:269 | `filter(len_chars().le(length))` keeps exactly the rows whose cell is a non-null string of at most `length` characters, every copy of each |
| Expectations.LengthGreaterThan | dataframe-validator/dataframe_validator/polars_validator_frame.py:265-269 | a missing column raises `ColumnNotFound`; an existing column raises "not of string type" iff it is not String |
| Expectations.LengthVerdict | dataframe-validator/dataframe_validator/polars_validator_frame.py:268-269 | the verdict passes iff no row fails; a row fails iff its string has at most `length` characters, and appears as often as in the frame |
| Expectations.NotGreaterRows | dataframe-validator/dataframe_validator/polars_validator_frame.py:170 | `filter(col(a).le(col(b)))` keeps exactly the rows where both cells are non-null and a <= b, every copy of each |
| Expectations.AGreaterThanB | dataframe-validator/dataframe_validator/polars_validator_frame.py:169-170 | a missing column a raises before column b is looked up; with both present it raises iff their dtypes differ, and the error is `InvalidComparison`; the verdict is "no failing rows" |
| Expectations.AGreaterThanBVerdict | dataframe-validator/dataframe_validator/polars_validator_frame.py:169-170 | the verdict passes iff `a > b` in every row where both cells are non-null; a row fails iff both cells are non-null and a <= b, and appears as often as in the frame |
| Results.FailedResultsAreTheFalseOnes | dataframe-validator/dataframe_validator/polars_validator_frame.py:152-154 | the collected failures are exactly the false entries, and there are none iff every entry is true |
| Results.FailedResultsCountsEveryFalseEntry | dataframe-validator/dataframe_validator/polars_validator_frame.py:152-156 | every false entry is collected as often as it occurs in the ledger, and no true entry is, so `len(validation_failures)` counts them all |
| Results.CollectFailures | dataframe-validator/dataframe_validator/polars_validator_frame.py:152-154 | the loop collects the false entries in ledger order |
| Results.RaiseIfAnyFailed | dataframe-validator/dataframe_validator/polars_validator_frame.py:150-157 | passes iff every entry is true; otherwise raises `DataValidationError` carrying the number of false entries, at least one |
| Results.FailureMessageReportsCount | dataframe-validator/dataframe_validator/polars_validator_frame.py:156 | the message is "Validation failed for k expectations" and `k` can be read back from it |
| PyText.ParseNatToString | dataframe-validator/dataframe_validator/polars_validator_frame.py:156 | the decimal rendering of a count parses back to the count |
| Results.DataValidationError.Message | dataframe-validator/dataframe_validator/polars_validator_frame.py:266 | the "not of string type" message is "Column '<name>' is not of string type" with the column name recoverable between the fixed parts; the failure message carries a count that parses back to it (also dataframe-validator/dataframe_validator/polars_validator_frame.py:156 and dataframe-validator/dataframe_validator/polars_validator.py:126) |
| Results.MessageDeterminesError | dataframe-validator/dataframe_validator/polars_validator_frame.py:156-157 | equal messages come from equal errors: the text alone tells the two kinds apart and gives back the column or the count |
| Results.Insert | dataframe-validator/dataframe_validator/polars_validator_frame.py:137-139 | inserting an entry into the sorted ledger keeps every entry, the new one added once |
| Results.InsertSorted | dataframe-validator/dataframe_validator/polars_validator_frame.py:137-139 | inserting into a list sorted by column name keeps it sorted |
| Results.InsertStable | dataframe-validator/dataframe_validator/polars_validator_frame.py:137-139 | insertion keeps the relative order of entries with equal column names |
| Results.SortByColumn | dataframe-validator/dataframe_validator/polars_validator_frame.py:137-139 | the sort is a permutation of the ledger |
| Results.SortByColumnSorted | dataframe-validator/dataframe_validator/polars_validator_frame.py:137-139 | the sorted ledger is ordered by column name |
| Results.SortByColumnStable | dataframe-validator/dataframe_validator/polars_validator_frame.py:137-139 | entries of one column keep their ledger order, as Python's stable `sorted` does |
| Results.ShowResults | dataframe-validator/dataframe_validator/polars_validator_frame.py:134-140 | the rows shown are the ledger sorted by column name, a permutation, stable per column |
| ValidatorFrame.AddValidationFailColumns | dataframe-validator/dataframe_validator/polars_validator_frame.py:241-252 | raises iff the frame already has a provenance column; otherwise every failing row gains the name at index 0 and the args at index 1, unchanged after |
| ValidatorFrame.TaggedRowsFitLedger | dataframe-validator/dataframe_validator/polars_validator_frame.py:241-252 | every tagged row fits the ledger schema `expectation_name, expectation_args` plus the frame's columns |
| ValidatorFrame.UniqueLedgerArgs | dataframe-validator/dataframe_validator/polars_validator_frame.py:79-81 | the `expectation_args` cell of a uniqueness failure is Python's `str` of the keyword dict, `{'column_name': '<name>'}` |
| ValidatorFrame.GreaterThanLedgerArgs | dataframe-validator/dataframe_validator/polars_validator_frame.py:108-112 | the tag is `{'column_name': '<name>', 'value': <value>, 'allow_nulls': True/False}`, keys in call order |
| ValidatorFrame.AGreaterThanBLedgerArgs | dataframe-validator/dataframe_validator/polars_validator_frame.py:175-178 | the tag is `{'column_a': '<a>', 'column_b': '<b>'}` |
| ValidatorFrame.InSetLedgerArgs | dataframe-validator/dataframe_validator/polars_validator_frame.py:209-212 | the tag is `{'column_name': '<name>', 'values': [<values>]}`, the list in Python's `repr` |
| ValidatorFrame.LengthLedgerArgs | dataframe-validator/dataframe_validator/polars_validator_frame.py:274-277 | the tag is `{'column_name': '<name>', 'length': <length>}` |
| ValidatorFrame.GreaterThanResultArgs | dataframe-validator/dataframe_validator/polars_validator_frame.py:119 | the result entry's arguments read `value=<value>, allow_nulls=True/False`, as the `=` f-string specifier renders them |
| ValidatorFrame.AGreaterThanBResultArgs | dataframe-validator/dataframe_validator/polars_validator_frame.py:185 | the arguments read `column_a='<a>', column_b='<b>'`, the names quoted by `repr` |
| ValidatorFrame.InSetResultArgs | dataframe-validator/dataframe_validator/polars_validator_frame.py:219 | the arguments read `values=[<values>]` |
| ValidatorFrame.LengthResultArgs | dataframe-validator/dataframe_validator/polars_validator_frame.py:284 | the arguments read `length=<length>` |
| ValidatorFrame.ValidatorDataFrame.constructor | dataframe-validator/dataframe_validator/polars_validator_frame.py:31-53 | a new validator has empty ledgers and a true flag, and satisfies the invariant |
| ValidatorFrame.ValidatorDataFrame.ExpectColumnToExist | dataframe-validator/dataframe_validator/polars_validator_frame.py:55-67 | appends one entry with verdict "column present" and no row count; ledger and flag unchanged; returns itself |
| ValidatorFrame.ValidatorDataFrame.ExpectColumnToContainUniqueValues | dataframe-validator/dataframe_validator/polars_validator_frame.py:69-93 | a missing column or a provenance clash raises before any change; otherwise flag &&= verdict, tagged rows appended, entry with count appended; invariant kept |
| ValidatorFrame.ValidatorDataFrame.ExpectColumnValueGreaterThan | dataframe-validator/dataframe_validator/polars_validator_frame.py:95-125 | a lookup or type error raises before any change; a provenance clash raises after the flag update; otherwise both ledgers grow by this rule's rows and entry; invariant kept |
| ValidatorFrame.ValidatorDataFrame.ShowResults | dataframe-validator/dataframe_validator/polars_validator_frame.py:127-148 | raises `ColumnNotFound("fail_rows")` exactly when the ledger is empty; otherwise the entries shown are the result ledger sorted stably by column name |
| ValidatorFrame.ValidatorDataFrame.ThrowErrorIfInvalid | dataframe-validator/dataframe_validator/polars_validator_frame.py:150-157 | raises with the count of false entries iff one exists; a false flag implies a raise when the provenance columns can be inserted |
| ValidatorFrame.ValidatorDataFrame.ExpectColumnValueToBeBetween | dataframe-validator/dataframe_validator/polars_validator_frame.py:159-163 | not implemented: returns itself, nothing changes |
| ValidatorFrame.ValidatorDataFrame.ExpectColumnAGreaterThanColumnB | dataframe-validator/dataframe_validator/polars_validator_frame.py:165-191 | as greater-than, comparing two columns; the entry is filed under column a with the name `expect_column_value_greater_than` |
| ValidatorFrame.ValidatorDataFrame.ExpectColumnValueToMatchRegex | dataframe-validator/dataframe_validator/polars_validator_frame.py:193-197 | not implemented: returns itself, nothing changes |
| ValidatorFrame.ValidatorDataFrame.ExpectColumnValueToBeInSet | dataframe-validator/dataframe_validator/polars_validator_frame.py:199-225 | as greater-than, with the membership rule and `values=[...]` as rendered arguments |
| ValidatorFrame.ValidatorDataFrame.ExpectColumnToBeOfType | dataframe-validator/dataframe_validator/polars_validator_frame.py:227-229 | not implemented: returns itself, nothing changes |
| ValidatorFrame.ValidatorDataFrame.IsValid | dataframe-validator/dataframe_validator/polars_validator_frame.py:254-257 | a true flag means every evaluated rule passed, and conversely whenever the provenance columns can be inserted |
| ValidatorFrame.ValidatorDataFrame.ExpectColumnValueLengthGreaterThan | dataframe-validator/dataframe_validator/polars_validator_frame.py:259-290 | a non-String column raises "not of string type" before any change; otherwise as greater-than, the ledger rows named `expect_column_value_greater_than` |
| PolarsValidator.PolarsDataFrameValidator.constructor | dataframe-validator/dataframe_validator/polars_validator.py:41-48 | stores the (well-formed) frame and the `quarantine` flag with an empty result ledger |
| PolarsValidator.PolarsDataFrameValidator.ExpectColumnToExist | dataframe-validator/dataframe_validator/polars_validator.py:50-62 | appends one entry recording whether the column exists; returns itself |
| PolarsValidator.PolarsDataFrameValidator.ExpectColumnToContainUniqueValues | dataframe-validator/dataframe_validator/polars_validator.py:64-80 | a missing column raises with nothing changed; otherwise appends the verdict and the number of duplicated rows |
| PolarsValidator.PolarsDataFrameValidator.ExpectColumnValueGreaterThan | dataframe-validator/dataframe_validator/polars_validator.py:82-101 | a lookup or type error raises with nothing changed; otherwise appends the verdict, the count of non-null rows at most `value`, and `str(value), allow_nulls=...` |
| PolarsValidator.GreaterThanArgs | dataframe-validator/dataframe_validator/polars_validator.py:95 | the arguments read `<value>, allow_nulls=True/False`: the bare `str(value)` without a `value=` label, unlike the other class |
| PolarsValidator.PolarsDataFrameValidator.ShowResults | dataframe-validator/dataframe_validator/polars_validator.py:103-118 | raises `ColumnNotFound("fail_rows")` exactly when the ledger is empty; otherwise the entries shown are the result ledger sorted stably by column name |
| PolarsValidator.PolarsDataFrameValidator.ThrowErrorIfInvalid | dataframe-validator/dataframe_validator/polars_validator.py:120-127 | raises with the count of false entries iff one exists |
| PolarsValidator.PolarsDataFrameValidator.ExpectColumnValueToBeBetween | dataframe-validator/dataframe_validator/polars_validator.py:129-133 | not implemented: returns itself |
| PolarsValidator.PolarsDataFrameValidator.ExpectColumnAGreaterThanColumnB | dataframe-validator/dataframe_validator/polars_validator.py:135-139 | not implemented: returns itself |
| PolarsValidator.PolarsDataFrameValidator.ExpectColumnValueToMatchRegex | dataframe-validator/dataframe_validator/polars_validator.py:141-145 | not implemented: returns itself |
| PolarsValidator.PolarsDataFrameValidator.ExpectColumnValueToBeInSet | dataframe-validator/dataframe_validator/polars_validator.py:147-151 | not implemented: returns itself |
| PolarsValidator.PolarsDataFrameValidator.ExpectColumnToBeOfType | dataframe-validator/dataframe_validator/polars_validator.py:153-155 | not implemented: returns itself |
| Scenarios.UniqueDistinctPasses | dataframe-validator/tests/test_expect_column_to_contain_unique_values.py:9-14 | a = [1, 2, 3] passes with no flagged row |
| Scenarios.UniqueIgnoresOtherColumns | dataframe-validator/tests/test_expect_column_to_contain_unique_values.py:15-20 | b = [4, 5, 6] passes although column c repeats a value |
| Scenarios.UniqueAllRepeatedFail | dataframe-validator/tests/test_expect_column_to_contain_unique_values.py:21-26 | c = [8, 8, 8] fails and all three rows are flagged |
| Scenarios.UniqueLoneNullPasses | dataframe-validator/tests/test_expect_column_to_contain_unique_values.py:27-32 | a = [1, 2, null] passes with no flagged row |
| Scenarios.UniqueNullsCompareEqual | dataframe-validator/tests/test_expect_column_to_contain_unique_values.py:33-38 | a = [1, null, null] fails with the two null rows flagged |
| Scenarios.InSetPass | dataframe-validator/tests/test_expect_column_value_to_be_in_set.py:5-13 | [1, 2, 3] in [1, 2, 3] passes with no failing row |
| Scenarios.InSetFailOne | dataframe-validator/tests/test_expect_column_value_to_be_in_set.py:27-35 | [7, 8, 9] in [8, 9, 0] fails on the one row holding 7 |
| Scenarios.InSetFailMany | dataframe-validator/tests/test_expect_column_value_to_be_in_set.py:38-46 | [7, 8, 9] in [1, 2, 3] fails on all three rows |
| Scenarios.InSetStringPass | dataframe-validator/tests/test_expect_column_value_to_be_in_set.py:16-24 | the String column ["4", "5", "6"] in ["4", "5", "6"] passes with no failing row |
| Scenarios.InSetKindMismatch | dataframe-validator/dataframe_validator/polars_validator_frame.py:203 | a string list against an Int column is an invalid comparison |
| Scenarios.LengthZeroPass | dataframe-validator/tests/test_expect_column_value_length_greater_than.py:5-15 | "a", "b", "c" are all longer than 0: pass, no failing row |
| Scenarios.LengthPass | dataframe-validator/tests/test_expect_column_value_length_greater_than.py:18-28 | "one", "two", "three" are all longer than 1: pass, no failing row |
| Scenarios.LengthFailOne | dataframe-validator/tests/test_expect_column_value_length_greater_than.py:31-41 | "a", "aa", "aaa" against 1 fail on the one row holding "a" |
| Scenarios.LengthFailMany | dataframe-validator/tests/test_expect_column_value_length_greater_than.py:44-54 | "a", "aa", "aaa" against 5 fail on all three rows |
| Scenarios.LengthOnIntColumn | dataframe-validator/tests/test_expect_column_value_length_greater_than.py:56-63 | an Int column raises the error "Column 'a' is not of string type" |
| Scenarios.AllColumnsExistChain | dataframe-validator/tests/test_schema.py:4-22 | on `PolarsDataFrameValidator`, checking a, b, c on a frame with all three gives three entries, all true, and nothing is raised |
| Scenarios.ExistenceChain | dataframe-validator/tests/test_schema.py:24-33 | on `PolarsDataFrameValidator`, checking a, b, c on a frame with a and b gives three entries, true, true, false, and raising reports one failure |
| Scenarios.FrameExistenceChain | dataframe-validator/dataframe_validator/polars_validator_frame.py:55-67 | the same chain on `ValidatorDataFrame`: the flag stays true, yet raising reports one failure |
| Scenarios.ShowResultsOnFreshValidator | dataframe-validator/dataframe_validator/polars_validator.py:109-116 | `show_results` on a validator with no entries raises for the missing `fail_rows` column |
| Scenarios.InSetOnFreshFrame | dataframe-validator/dataframe_validator/polars_validator_frame.py:199-225 | on a fresh `ValidatorDataFrame`, one membership check leaves one result entry, the flag equal to the rule's verdict and as many failure-ledger rows as failing rows |
| Scenarios.FrameInSetFailOne | dataframe-validator/tests/test_expect_column_value_to_be_in_set.py:27-35 | on the class, [7, 8, 9] in [8, 9, 0] lowers the flag and leaves one result entry and one failure row |
| Scenarios.FrameInSetFailMany | dataframe-validator/tests/test_expect_column_value_to_be_in_set.py:38-46 | on the class, [7, 8, 9] in [1, 2, 3] lowers the flag and leaves one result entry and three failure rows |
| Scenarios.LengthOnFreshFrame | dataframe-validator/dataframe_validator/polars_validator_frame.py:259-290 | on a fresh `ValidatorDataFrame`, one length check leaves one result entry, the flag equal to the verdict and one failure row per failing row |
| Scenarios.FrameLengthFailOne | dataframe-validator/tests/test_expect_column_value_length_greater_than.py:31-41 | on the class, "a", "aa", "aaa" against 1 lowers the flag and leaves one entry and one failure row |
| Scenarios.FrameLengthFailMany | dataframe-validator/tests/test_expect_column_value_length_greater_than.py:44-54 | on the class, "a", "aa", "aaa" against 5 lowers the flag and leaves one entry and three failure rows |
| Scenarios.UniqueOnFreshFrame | dataframe-validator/dataframe_validator/polars_validator_frame.py:69-93 | on a fresh `ValidatorDataFrame`, one uniqueness check leaves one result entry, the flag equal to the verdict and one failure row per flagged row |
| Scenarios.FrameUniqueAllRepeatedFail | dataframe-validator/tests/test_expect_column_to_contain_unique_values.py:21-26 | on the class, c = [8, 8, 8] lowers the flag and leaves one entry and three failure rows |
| Scenarios.FrameUniqueNullsCompareEqual | dataframe-validator/tests/test_expect_column_to_contain_unique_values.py:33-38 | on the class, a = [1, null, null] lowers the flag and leaves one entry and the two null rows in the failure ledger |

## Left out

- Printing. `show_results` and `show_failures` format a table under
  `pl.Config` and print it, with the ✅/❌ rendering and `fill_null("")`. The
  model returns the sorted result ledger instead, or, for an empty ledger,
  the `ColumnNotFound("fail_rows")` error that building the table raises. `show_failures`
  (`polars_validator_frame.py:231-239`) only prints the failure ledger, which
  the model keeps as the `validationFails` field, so it has no member of its own.
- Value types. Columns are Int or String only. Floats, dates, datetimes and
  the other Polars dtypes are not modelled.
- Expectations.GreaterThan: the threshold is an `int`; the source also accepts
  a float, a date or a datetime.
- ValidatorFrame.ValidatorDataFrame.ExpectColumnValueGreaterThan: same `int`
  restriction on the threshold.
- PolarsValidator.PolarsDataFrameValidator.ExpectColumnValueGreaterThan: same
  `int` restriction on the threshold.
- Expectations.LengthGreaterThan: `length` is an `int`; the source's annotation
  also admits a float, a date or a datetime.
- ValidatorFrame.ValidatorDataFrame.constructor: the frame arrives as a
  well-formed value. The Polars constructor arguments (`schema`, `orient`,
  `strict`, …) and their inference are not modelled.
- The failure ledger starts as `pl.DataFrame()` with no columns. The model
  assumes that concatenating it with the first tagged frame yields exactly
  that frame's rows, under the provenance columns plus the frame's own.
- Everything else a `ValidatorDataFrame` inherits from `pl.DataFrame`, as well
  as aliasing between the frame and derived frames.
- The text of Polars' own exceptions. A missing column, a comparison across
  types and a duplicate inserted column are the `Error` cases
  `ColumnNotFound`, `InvalidComparison` and `DuplicateColumn`, without a
  message.
- `polars_validator_frame.py` imports `DataValidationError` from
  `.exceptions`, which is not part of this model. The model uses the one class
  declared at `polars_validator.py:17-18` for both validators.
- String rendering. `repr` of a string is written as the string in single
  quotes: escaping of quotes, backslashes and non-printable characters is not
  modelled.
- The unique-values, in-set and length test files construct
  `PolarsDataFrameValidator` yet inspect `validation_fails` and `is_valid`,
  and they call the membership and length rules. Only `ValidatorDataFrame`
  has those. The scenarios for those files therefore state the tests'
  expectations against the rule functions that `ValidatorDataFrame` records.
  The existence tests use only what `PolarsDataFrameValidator` has, and their
  scenarios drive that class.
- Null semantics of `is_in`. The model takes `is_in` to propagate nulls: a
  null cell is neither in nor outside the list, so it never fails the
  membership rule. Polars has changed how `is_in` treats nulls across its
  1.x releases, and the source pins no version.
- No Python or Polars code runs in the model, and there is no concurrency.

=== FILE: dataframe.dfy ===
/**
 * The table the validators read: a Polars DataFrame reduced to what the
 * rules observe. Columns are uniquely named and carry a dtype tag; a row
 * holds one cell per column, and a cell is either null or a value of the
 * column's dtype. Only the Int and String dtypes are represented.
 */
module DataFrames {
  import opened Wrappers
  import StringOrder

  datatype Value = IntVal(i: int) | StrVal(s: string)

  /** The dtype tag of a column: an integer dtype or `pl.String`. */
  datatype DType = IntType | StringType

  function KindOf(v: Value): DType
  {
    if v.IntVal? then IntType else StringType
  }

  datatype Column = Column(name: string, dtype: DType)

  /** One cell per column, in column order; `None` is a null. */
  type Row = seq<Option<Value>>

  datatype DataFrame = DataFrame(columns: seq<Column>, rows: seq<Row>) {
    /** What Polars guarantees of every frame: distinct names, rectangular, typed cells. */
    predicate WellFormed()
    {
      && (forall j, k :: 0 <= j < k < |columns| ==> columns[j].name != columns[k].name)
      && (forall row :: row in rows ==> RowFits(columns, row))
    }
  }

  /** `df.columns`. */
  function Names(columns: seq<Column>): (names: seq<string>)
    ensures |names| == |columns|
    ensures forall j :: 0 <= j < |columns| ==> names[j] == columns[j].name
  {
    seq(|columns|, j requires 0 <= j < |columns| => columns[j].name)
  }

  predicate RowFits(columns: seq<Column>, row: Row)
  {
    && |row| == |columns|
    && forall j :: 0 <= j < |row| && row[j].Some? ==> KindOf(row[j].value) == columns[j].dtype
  }

  /** The position of the named column, `None` when there is no such column. */
  function Lookup(columns: seq<Column>, name: string): (r: Option<nat>)
    ensures r.Some? <==> name in Names(columns)
    ensures r.Some? ==> r.value < |columns| && columns[r.value].name == name
  {
    if columns == [] then None
    else if columns[0].name == name then Some(0)
    else
      match Lookup(columns[1..], name)
      case None => None
      case Some(k) => Some(k + 1)
  }

  /** The cell of column `j` in `row`. */
  function Cell(row: Row, j: nat): Option<Value>
  {
    if j < |row| then row[j] else None
  }

  /** `df[name]` as a sequence, one cell per row. */
  function ColumnValues(rows: seq<Row>, j: nat): (vals: seq<Option<Value>>)
    ensures |vals| == |rows|
    ensures forall i :: 0 <= i < |rows| ==> vals[i] == Cell(rows[i], j)
  {
    seq(|rows|, i requires 0 <= i < |rows| => Cell(rows[i], j))
  }

  /**
   * `df.filter(mask)`: the rows the mask keeps, in their original order.
   * A null mask entry drops the row, so `keep` is false there. Every copy
   * of an accepted row is kept, so `len(df.filter(mask))` counts them all.
   */
  function FilterRows(rows: seq<Row>, keep: Row -> bool): (kept: seq<Row>)
    ensures forall row :: multiset(kept)[row] == if keep(row) then multiset(rows)[row] else 0
    ensures multiset(kept) <= multiset(rows)
    ensures forall row :: row in kept <==> row in rows && keep(row)
  {
    if rows == [] then []
    else
      var rest := FilterRows(rows[1..], keep);
      assert rows == [rows[0]] + rows[1..];
      if keep(rows[0]) then [rows[0]] + rest else rest
  }

  /** A filter returns the whole frame exactly when every row passes. */
  lemma {:induction false} FilterRowsKeepsAll(rows: seq<Row>, keep: Row -> bool)
    ensures FilterRows(rows, keep) == rows <==> forall row :: row in rows ==> keep(row)
  {
    if rows != [] {
      FilterRowsKeepsAll(rows[1..], keep);
      if forall row :: row in rows ==> keep(row) {
        assert rows == [rows[0]] + rows[1..];
      }
    }
  }

  /** A filter returns no row exactly when no row passes. */
  lemma {:induction false} FilterRowsKeepsNone(rows: seq<Row>, keep: Row -> bool)
    ensures FilterRows(rows, keep) == [] <==> forall row :: row in rows ==> !keep(row)
  {
    if rows != [] {
      FilterRowsKeepsNone(rows[1..], keep);
      assert rows[0] in rows;
      assert forall row :: row in rows[1..] ==> row in rows;
    }
  }

  /** Filtering first by a weaker mask changes nothing. */
  lemma {:induction false} FilterRowsAbsorb(rows: seq<Row>, weaker: Row -> bool, keep: Row -> bool)
    requires forall row :: keep(row) ==> weaker(row)
    ensures FilterRows(FilterRows(rows, weaker), keep) == FilterRows(rows, keep)
  {
    if rows != [] {
      FilterRowsAbsorb(rows[1..], weaker, keep);
      var inner := FilterRows(rows[1..], weaker);
      if weaker(rows[0]) {
        assert ([rows[0]] + inner)[1..] == inner;
      }
    }
  }

  /** polars' `<` on two values of one dtype: numeric, or lexicographic on strings. */
  predicate Less(a: Value, b: Value)
  {
    match (a, b)
    case (IntVal(x), IntVal(y)) => x < y
    case (StrVal(x), StrVal(y)) => StringOrder.Less(x, y)
    case _ => false
  }

  /** polars' `<=` on two values of one dtype. */
  predicate AtMost(a: Value, b: Value)
  {
    match (a, b)
    case (IntVal(x), IntVal(y)) => x <= y
    case (StrVal(x), StrVal(y)) => StringOrder.AtMost(x, y)
    case _ => false
  }

  /** On values of one dtype, `a <= b` fails exactly when `a > b`. */
  lemma AtMostIsNotGreater(a: Value, b: Value)
    requires KindOf(a) == KindOf(b)
    ensures AtMost(a, b) <==> !Less(b, a)
  {
    if a.StrVal? {
      StringOrder.AtMostIsNotGreater(a.s, b.s);
    }
  }
}

=== FILE: expectations.dfy ===
/**
 * The rule catalog: each expectation evaluated against a frame, as a pure
 * function giving the verdict and the failing rows, or the exception the
 * evaluation raises. Verdicts follow Polars: a comparison with a null is
 * null, `.all()` skips nulls and `filter` drops them, so null cells take
 * no part in the greater-than, in-set, length and column-comparison rules
 * (for `is_in` this takes a null cell's membership to be null); in the
 * uniqueness rule nulls compare equal to each other.
 */
module Expectations {
  import opened Wrappers
  import opened DataFrames
  import opened Results

  /** The verdict of one rule and the rows that break it. */
  datatype Evaluation = Evaluation(pass: bool, failing: seq<Row>)

  /** `column_name in df.columns`. */
  predicate ColumnExists(df: DataFrame, name: string)
  {
    name in Names(df.columns)
  }

  // ---- uniqueness: `n_unique() == len(df)`, failing rows `~is_unique()`

  /** How often the cell value `v` (null included) occurs in column `j`. */
  function Occurrences(rows: seq<Row>, j: nat, v: Option<Value>): nat
  {
    multiset(ColumnValues(rows, j))[v]
  }

  /** The distinct values of a column, null included: `|Distinct(vals)|` is `n_unique()`. */
  function Distinct<T(!new)>(s: seq<T>): (d: set<T>)
    ensures forall v :: v in d <==> v in s
  {
    set v | v in s
  }

  /** The rows of `~is_unique()`: those whose value in column `j` occurs more than once. */
  function Duplicates(rows: seq<Row>, j: nat): (dups: seq<Row>)
    ensures forall row :: row in dups <==> row in rows && Occurrences(rows, j, Cell(row, j)) > 1
    ensures forall row :: multiset(dups)[row] == if Occurrences(rows, j, Cell(row, j)) > 1 then multiset(rows)[row] else 0
  {
    FilterRows(rows, row => Occurrences(rows, j, Cell(row, j)) > 1)
  }

  function Unique(df: DataFrame, name: string): (r: Result<Evaluation, Error>)
    ensures r.Failure? <==> !ColumnExists(df, name)
    ensures r.Failure? ==> r.error == ColumnNotFound(name)
    ensures r.Success? ==> forall row :: row in r.value.failing ==> row in df.rows
  {
    match Lookup(df.columns, name)
    case None => Failure(ColumnNotFound(name))
    case Some(j) =>
      var vals := ColumnValues(df.rows, j);
      Success(Evaluation(
        |Distinct(vals)| == |df.rows|,
        Duplicates(df.rows, j)))
  }

  lemma {:induction false} DistinctCountBound<T(!new)>(s: seq<T>)
    ensures |Distinct(s)| <= |s|
  {
    if s != [] {
      DistinctCountBound(s[1..]);
      assert Distinct(s) == {s[0]} + Distinct(s[1..]);
    }
  }

  /** The distinct count equals the length exactly when every element occurs once. */
  lemma {:induction false} DistinctCountIffNoRepeats<T(!new)>(s: seq<T>)
    ensures |Distinct(s)| == |s| <==> forall i :: 0 <= i < |s| ==> multiset(s)[s[i]] == 1
  {
    if s != [] {
      var t := s[1..];
      assert s == [s[0]] + t;
      assert multiset(s) == multiset{s[0]} + multiset(t);
      assert Distinct(s) == {s[0]} + Distinct(t);
      DistinctCountIffNoRepeats(t);
      DistinctCountBound(t);
      if s[0] in t {
        assert Distinct(s) == Distinct(t);
        assert multiset(s)[s[0]] > 1;
      } else {
        assert s[0] !in Distinct(t);
        assert |Distinct(s)| == |Distinct(t)| + 1;
        assert multiset(s)[s[0]] == 1;
        forall i | 1 <= i < |s|
          ensures multiset(s)[s[i]] == multiset(t)[t[i - 1]]
        {
          assert s[i] == t[i - 1] && s[i] != s[0];
        }
        if forall i :: 0 <= i < |t| ==> multiset(t)[t[i]] == 1 {
          forall i | 0 <= i < |s| ensures multiset(s)[s[i]] == 1 {
            if i > 0 {
              assert multiset(t)[t[i - 1]] == 1;
            }
          }
        } else {
          var i :| 0 <= i < |t| && multiset(t)[t[i]] != 1;
          assert multiset(s)[s[i + 1]] != 1;
        }
      }
    }
  }

  /**
   * The uniqueness verdict passes exactly when no row is flagged, and a row
   * is flagged exactly when its value, null included, occurs more than once:
   * every occurrence of a repeated value is flagged, a lone null never is.
   */
  lemma UniqueVerdict(df: DataFrame, name: string)
    requires ColumnExists(df, name)
    ensures var j := Lookup(df.columns, name).value;
      var ev := Unique(df, name).value;
      && (ev.pass <==> ev.failing == [])
      && (forall row :: row in ev.failing <==> row in df.rows && Occurrences(df.rows, j, Cell(row, j)) > 1)
      && (forall row :: multiset(ev.failing)[row] ==
            if Occurrences(df.rows, j, Cell(row, j)) > 1 then multiset(df.rows)[row] else 0)
  {
    var j := Lookup(df.columns, name).value;
    assert Unique(df, name).value == Evaluation(|Distinct(ColumnValues(df.rows, j))| == |df.rows|, Duplicates(df.rows, j));
    NoDuplicatesIffAllDistinct(df.rows, j);
  }

  /** No row is flagged exactly when the column holds as many distinct values as rows. */
  lemma NoDuplicatesIffAllDistinct(rows: seq<Row>, j: nat)
    ensures Duplicates(rows, j) == [] <==> |Distinct(ColumnValues(rows, j))| == |rows|
  {
    var vals := ColumnValues(rows, j);
    var dups := Duplicates(rows, j);
    DistinctCountIffNoRepeats(vals);
    if dups != [] {
      var row := dups[0];
      assert row in dups && row in rows;
      var i :| 0 <= i < |rows| && rows[i] == row;
      assert multiset(vals)[vals[i]] > 1;
    }
    if |Distinct(vals)| != |rows| {
      var i :| 0 <= i < |vals| && multiset(vals)[vals[i]] != 1;
      assert vals[i] in multiset(vals);
      assert rows[i] in dups;
    }
  }

  // ---- greater than a threshold: `df[c].gt(value).all()`, failing rows `le(value)`

  /**
   * `allow_nulls` is accepted by the source and ignored, so it is not an
   * argument here; null cells drop out of the verdict and the failing rows.
   */
  function GreaterThan(df: DataFrame, name: string, value: int): (r: Result<Evaluation, Error>)
    ensures r.Failure? <==> !ColumnExists(df, name) || df.columns[Lookup(df.columns, name).value].dtype != IntType
    ensures !ColumnExists(df, name) ==> r == Failure(ColumnNotFound(name))
    ensures ColumnExists(df, name) && df.columns[Lookup(df.columns, name).value].dtype != IntType ==>
      r == Failure(InvalidComparison)
    ensures r.Success? ==> forall row :: row in r.value.failing ==> row in df.rows
  {
    match Lookup(df.columns, name)
    case None => Failure(ColumnNotFound(name))
    case Some(j) =>
      if df.columns[j].dtype != IntType then Failure(InvalidComparison)
      else
        var threshold := IntVal(value);
        Success(Evaluation(
          forall row | row in df.rows :: Cell(row, j).Some? ==> Less(threshold, Cell(row, j).value),
          FilterRows(df.rows, row => Cell(row, j).Some? && AtMost(Cell(row, j).value, threshold))))
  }

  /** The greater-than verdict passes exactly when no non-null value is at most the threshold. */
  lemma GreaterThanVerdict(df: DataFrame, name: string, value: int)
    requires df.WellFormed()
    requires GreaterThan(df, name, value).Success?
    ensures var j := Lookup(df.columns, name).value;
      var ev := GreaterThan(df, name, value).value;
      && (ev.pass <==> ev.failing == [])
      && (forall row :: row in ev.failing <==>
            row in df.rows && Cell(row, j).Some? && Cell(row, j).value.IntVal? && Cell(row, j).value.i <= value)
      && (forall row :: multiset(ev.failing)[row] ==
            if Cell(row, j).Some? && Cell(row, j).value.IntVal? && Cell(row, j).value.i <= value
            then multiset(df.rows)[row] else 0)
  {
    var j := Lookup(df.columns, name).value;
    var ev := GreaterThan(df, name, value).value;
    var threshold := IntVal(value);
    var keep := row => Cell(row, j).Some? && AtMost(Cell(row, j).value, threshold);
    assert ev.failing == FilterRows(df.rows, keep);
    assert ev.pass == forall row | row in df.rows :: Cell(row, j).Some? ==> Less(threshold, Cell(row, j).value);
    forall row | row in df.rows && Cell(row, j).Some?
      ensures Cell(row, j).value.IntVal?
      ensures keep(row) <==> !Less(threshold, Cell(row, j).value)
    {
      assert RowFits(df.columns, row);
    }
    if !ev.pass {
      var row :| row in df.rows && Cell(row, j).Some? && !Less(threshold, Cell(row, j).value);
      assert row in ev.failing;
    }
    if ev.failing != [] {
      assert ev.failing[0] in ev.failing;
    }
  }

  /** The frame without the rows whose cell in column `j` is null. */
  function DropNulls(df: DataFrame, j: nat): (d: DataFrame)
    ensures forall row :: row in d.rows <==> row in df.rows && Cell(row, j).Some?
  {
    DataFrame(df.columns, FilterRows(df.rows, row => Cell(row, j).Some?))
  }

  /** Null rows take no part in the greater-than rule: dropping them changes nothing. */
  lemma GreaterThanIgnoresNulls(df: DataFrame, name: string, value: int)
    requires ColumnExists(df, name)
    ensures GreaterThan(DropNulls(df, Lookup(df.columns, name).value), name, value) == GreaterThan(df, name, value)
  {
    var j := Lookup(df.columns, name).value;
    var threshold := IntVal(value);
    FilterRowsAbsorb(df.rows, row => Cell(row, j).Some?, row => Cell(row, j).Some? && AtMost(Cell(row, j).value, threshold));
  }

  // ---- membership: `df[c].is_in(values).all()`, failing rows `~is_in(values)`

  /** The rows of `~is_in(values)` kept by `filter`: non-null cells of column `j` outside `values`. */
  function NotInSet(rows: seq<Row>, j: nat, values: seq<Value>): (outside: seq<Row>)
    ensures forall row :: row in outside <==> row in rows && Cell(row, j).Some? && Cell(row, j).value !in values
    ensures forall row :: multiset(outside)[row] ==
              if Cell(row, j).Some? && Cell(row, j).value !in values then multiset(rows)[row] else 0
  {
    FilterRows(rows, row => Cell(row, j).Some? && Cell(row, j).value !in values)
  }

  function InSet(df: DataFrame, name: string, values: seq<Value>): (r: Result<Evaluation, Error>)
    ensures r.Failure? <==>
      || !ColumnExists(df, name)
      || exists k :: 0 <= k < |values| && KindOf(values[k]) != df.columns[Lookup(df.columns, name).value].dtype
    ensures !ColumnExists(df, name) ==> r == Failure(ColumnNotFound(name))
    ensures r.Failure? && ColumnExists(df, name) ==> r.error == InvalidComparison
    ensures r.Success? ==> forall row :: row in r.value.failing ==> row in df.rows
  {
    match Lookup(df.columns, name)
    case None => Failure(ColumnNotFound(name))
    case Some(j) =>
      if exists k :: 0 <= k < |values| && KindOf(values[k]) != df.columns[j].dtype then Failure(InvalidComparison)
      else
        Success(Evaluation(
          forall row | row in df.rows :: Cell(row, j).Some? ==> Cell(row, j).value in values,
          NotInSet(df.rows, j, values)))
  }

  /** The in-set verdict passes exactly when no row fails; the failing rows are the non-null non-members. */
  lemma InSetVerdict(df: DataFrame, name: string, values: seq<Value>)
    requires InSet(df, name, values).Success?
    ensures var j := Lookup(df.columns, name).value;
      var ev := InSet(df, name, values).value;
      && (ev.pass <==> ev.failing == [])
      && (forall row :: row in ev.failing <==> row in df.rows && Cell(row, j).Some? && Cell(row, j).value !in values)
      && (forall row :: multiset(ev.failing)[row] ==
            if Cell(row, j).Some? && Cell(row, j).value !in values then multiset(df.rows)[row] else 0)
  {
    var ev := InSet(df, name, values).value;
    if ev.failing != [] {
      assert ev.failing[0] in ev.failing;
    }
  }

  // ---- string length: `df[c].str.len_chars().gt(length).all()`, failing rows `le(length)`

  /** `str.len_chars()` of one cell; null for a null cell. */
  function CharLength(cell: Option<Value>): Option<int>
  {
    match cell
    case Some(StrVal(s)) => Some(|s|)
    case _ => None
  }

  /** The rows of `len_chars().le(length)` kept by `filter`: non-null strings of at most `length` characters. */
  function NotLongerThan(rows: seq<Row>, j: nat, length: int): (short: seq<Row>)
    ensures forall row :: row in short <==>
      row in rows && CharLength(Cell(row, j)).Some? && CharLength(Cell(row, j)).value <= length
    ensures forall row :: multiset(short)[row] ==
              if CharLength(Cell(row, j)).Some? && CharLength(Cell(row, j)).value <= length then multiset(rows)[row] else 0
  {
    FilterRows(rows, row => CharLength(Cell(row, j)).Some? && CharLength(Cell(row, j)).value <= length)
  }

  function LengthGreaterThan(df: DataFrame, name: string, length: int): (r: Result<Evaluation, Error>)
    ensures !ColumnExists(df, name) ==> r == Failure(ColumnNotFound(name))
    ensures ColumnExists(df, name) ==>
      (r.Failure? <==> df.columns[Lookup(df.columns, name).value].dtype != StringType)
    ensures r.Failure? && ColumnExists(df, name) ==> r.error == DataValidation(NotStringType(name))
    ensures r.Success? ==> forall row :: row in r.value.failing ==> row in df.rows
  {
    match Lookup(df.columns, name)
    case None => Failure(ColumnNotFound(name))
    case Some(j) =>
      if df.columns[j].dtype != StringType then Failure(DataValidation(NotStringType(name)))
      else
        Success(Evaluation(
          forall row | row in df.rows :: CharLength(Cell(row, j)).Some? ==> CharLength(Cell(row, j)).value > length,
          NotLongerThan(df.rows, j, length)))
  }

  /** The length verdict passes exactly when no non-null string has at most `length` characters. */
  lemma LengthVerdict(df: DataFrame, name: string, length: int)
    requires LengthGreaterThan(df, name, length).Success?
    ensures var j := Lookup(df.columns, name).value;
      var ev := LengthGreaterThan(df, name, length).value;
      && (ev.pass <==> ev.failing == [])
      && (forall row :: row in ev.failing <==>
            row in df.rows && Cell(row, j).Some? && Cell(row, j).value.StrVal? && |Cell(row, j).value.s| <= length)
      && (forall row :: multiset(ev.failing)[row] ==
            if Cell(row, j).Some? && Cell(row, j).value.StrVal? && |Cell(row, j).value.s| <= length
            then multiset(df.rows)[row] else 0)
  {
    var j := Lookup(df.columns, name).value;
    var ev := LengthGreaterThan(df, name, length).value;
    assert ev.failing == NotLongerThan(df.rows, j, length);
    forall row: Row
      ensures (CharLength(Cell(row, j)).Some? && CharLength(Cell(row, j)).value <= length) <==>
              (Cell(row, j).Some? && Cell(row, j).value.StrVal? && |Cell(row, j).value.s| <= length)
    {
    }
    if ev.failing != [] {
      assert ev.failing[0] in ev.failing;
    }
  }

  // ---- column against column: failing rows `col(a) <= col(b)`, verdict "none failing"

  /** The rows of `filter(col(a) <= col(b))`: both cells non-null and the one in `ja` at most the one in `jb`. */
  function NotGreaterRows(rows: seq<Row>, ja: nat, jb: nat): (failing: seq<Row>)
    ensures forall row :: row in failing <==>
      row in rows && Cell(row, ja).Some? && Cell(row, jb).Some? && AtMost(Cell(row, ja).value, Cell(row, jb).value)
    ensures forall row :: multiset(failing)[row] ==
              if Cell(row, ja).Some? && Cell(row, jb).Some? && AtMost(Cell(row, ja).value, Cell(row, jb).value)
              then multiset(rows)[row] else 0
  {
    FilterRows(rows, row => Cell(row, ja).Some? && Cell(row, jb).Some? && AtMost(Cell(row, ja).value, Cell(row, jb).value))
  }

  function AGreaterThanB(df: DataFrame, a: string, b: string): (r: Result<Evaluation, Error>)
    ensures !ColumnExists(df, a) ==> r == Failure(ColumnNotFound(a))
    ensures ColumnExists(df, a) && !ColumnExists(df, b) ==> r == Failure(ColumnNotFound(b))
    ensures ColumnExists(df, a) && ColumnExists(df, b) ==>
      (r.Failure? <==> df.columns[Lookup(df.columns, a).value].dtype != df.columns[Lookup(df.columns, b).value].dtype)
    ensures r.Failure? && ColumnExists(df, a) && ColumnExists(df, b) ==> r.error == InvalidComparison
    ensures r.Success? ==> (r.value.pass <==> r.value.failing == [])
    ensures r.Success? ==> forall row :: row in r.value.failing ==> row in df.rows
  {
    match (Lookup(df.columns, a), Lookup(df.columns, b))
    case (None, _) => Failure(ColumnNotFound(a))
    case (_, None) => Failure(ColumnNotFound(b))
    case (Some(ja), Some(jb)) =>
      if df.columns[ja].dtype != df.columns[jb].dtype then Failure(InvalidComparison)
      else
        var failing := NotGreaterRows(df.rows, ja, jb);
        Success(Evaluation(|failing| == 0, failing))
  }

  /** Column `a` passes against column `b` exactly when `a > b` in every row where both are non-null. */
  lemma AGreaterThanBVerdict(df: DataFrame, a: string, b: string)
    requires df.WellFormed()
    requires AGreaterThanB(df, a, b).Success?
    ensures var ja := Lookup(df.columns, a).value;
      var jb := Lookup(df.columns, b).value;
      var ev := AGreaterThanB(df, a, b).value;
      && (ev.pass <==>
            forall row :: row in df.rows && Cell(row, ja).Some? && Cell(row, jb).Some? ==>
              Less(Cell(row, jb).value, Cell(row, ja).value))
      && (forall row :: row in ev.failing <==>
            row in df.rows && Cell(row, ja).Some? && Cell(row, jb).Some? && AtMost(Cell(row, ja).value, Cell(row, jb).value))
      && (forall row :: multiset(ev.failing)[row] ==
            if Cell(row, ja).Some? && Cell(row, jb).Some? && AtMost(Cell(row, ja).value, Cell(row, jb).value)
            then multiset(df.rows)[row] else 0)
  {
    var ja := Lookup(df.columns, a).value;
    var jb := Lookup(df.columns, b).value;
    forall row | row in df.rows && Cell(row, ja).Some? && Cell(row, jb).Some?
      ensures AtMost(Cell(row, ja).value, Cell(row, jb).value) <==> !Less(Cell(row, jb).value, Cell(row, ja).value)
    {
      assert RowFits(df.columns, row);
      AtMostIsNotGreater(Cell(row, ja).value, Cell(row, jb).value);
    }
    var ev := AGreaterThanB(df, a, b).value;
    assert ev.failing == NotGreaterRows(df.rows, ja, jb);
    if ev.failing != [] {
      assert ev.failing[0] in ev.failing;
    }
  }
}

=== FILE: polars_validator.dfy ===
/**
 * `PolarsDataFrameValidator`: the older shape, a validator that holds a
 * frame and a result ledger only. It evaluates existence, uniqueness and
 * greater-than; the other five expectations are not implemented.
 */
module PolarsValidator {
  import opened Wrappers
  import opened DataFrames
  import opened Results
  import opened Expectations
  import opened PyText

  const ExistName := "expect_column_to_exist"
  const UniqueName := "expect_column_to_contain_unique_values"
  const GreaterThanName := "expect_column_value_greater_than"

  /** `f"{str(value)}, {allow_nulls=}"`. */
  function GreaterThanArgs(value: int, allowNulls: bool): (r: string)
    ensures r == IntRepr(value) + ", allow_nulls=" + BoolRepr(allowNulls)
  {
    IntRepr(value) + ", " + SelfDoc("allow_nulls", BoolRepr(allowNulls))
  }

  class PolarsDataFrameValidator {
    const df: DataFrame
    /** Accepted and stored; no method reads it. */
    const quarantine: bool
    var validationResults: seq<ValidationResult>

    constructor (df: DataFrame, quarantine: bool)
      requires df.WellFormed()
      ensures this.df == df && this.quarantine == quarantine
      ensures validationResults == []
    {
      this.df := df;
      this.quarantine := quarantine;
      validationResults := [];
    }

    /** Appends one entry recording whether the column exists, without a failing-row count. */
    method ExpectColumnToExist(columnName: string) returns (validator: PolarsDataFrameValidator)
      modifies this
      ensures validator == this
      ensures validationResults ==
        old(validationResults) + [ValidationResult(columnName, ExistName, "", ColumnExists(df, columnName), None)]
    {
      validationResults := validationResults + [ValidationResult(columnName, ExistName, "", ColumnExists(df, columnName), None)];
      validator := this;
    }

    /** Appends the uniqueness verdict and the number of rows whose value repeats. */
    method ExpectColumnToContainUniqueValues(columnName: string) returns (outcome: Result<PolarsDataFrameValidator, Error>)
      modifies this
      ensures match Unique(df, columnName)
        case Failure(e) => outcome == Failure(e) && unchanged(this)
        case Success(ev) =>
          && outcome == Success(this)
          && validationResults ==
               old(validationResults) + [ValidationResult(columnName, UniqueName, "", ev.pass, Some(|ev.failing|))]
    {
      var ev :- Unique(df, columnName);
      validationResults := validationResults + [ValidationResult(columnName, UniqueName, "", ev.pass, Some(|ev.failing|))];
      outcome := Success(this);
    }

    /** Appends the greater-than verdict and the number of non-null rows at most `value`. */
    method ExpectColumnValueGreaterThan(columnName: string, value: int, allowNulls: bool)
      returns (outcome: Result<PolarsDataFrameValidator, Error>)
      modifies this
      ensures match GreaterThan(df, columnName, value)
        case Failure(e) => outcome == Failure(e) && unchanged(this)
        case Success(ev) =>
          && outcome == Success(this)
          && validationResults == old(validationResults) +
               [ValidationResult(columnName, GreaterThanName, GreaterThanArgs(value, allowNulls), ev.pass, Some(|ev.failing|))]
    {
      var ev :- GreaterThan(df, columnName, value);
      validationResults := validationResults +
        [ValidationResult(columnName, GreaterThanName, GreaterThanArgs(value, allowNulls), ev.pass, Some(|ev.failing|))];
      outcome := Success(this);
    }

    /**
     * The entries `show_results` prints. An empty ledger builds a frame with
     * no columns, so the `fail_rows` column the method then fills is missing.
     */
    method ShowResults() returns (outcome: Result<seq<ValidationResult>, Error>)
      ensures outcome.Failure? <==> validationResults == []
      ensures outcome.Failure? ==> outcome.error == ColumnNotFound(FailRowsColumn)
      ensures outcome.Success? ==> SortedByColumn(outcome.value)
      ensures outcome.Success? ==> multiset(outcome.value) == multiset(validationResults)
      ensures outcome.Success? ==> forall name :: WithColumn(outcome.value, name) == WithColumn(validationResults, name)
    {
      if validationResults == [] {
        return Failure(ColumnNotFound(FailRowsColumn));
      }
      var shown := Results.ShowResults(validationResults);
      outcome := Success(shown);
    }

    /** Raises `DataValidationError("Validation failed for k expectations")` when k >= 1 entries are false. */
    method ThrowErrorIfInvalid() returns (outcome: Outcome<Error>)
      ensures outcome.Pass? <==> forall i :: 0 <= i < |validationResults| ==> validationResults[i].result
      ensures outcome.Fail? ==> outcome.error == DataValidation(ValidationFailed(|FailedResults(validationResults)|))
    {
      outcome := RaiseIfAnyFailed(validationResults);
    }

    // ---- unimplemented expectations: they change nothing and return the same object

    method ExpectColumnValueToBeBetween(columnName: string, lowValue: Value, highValue: Value)
      returns (validator: PolarsDataFrameValidator)
      ensures validator == this
    {
      validator := this;
    }

    method ExpectColumnAGreaterThanColumnB(columnA: string, columnB: string) returns (validator: PolarsDataFrameValidator)
      ensures validator == this
    {
      validator := this;
    }

    method ExpectColumnValueToMatchRegex(columnName: string, pattern: string) returns (validator: PolarsDataFrameValidator)
      ensures validator == this
    {
      validator := this;
    }

    method ExpectColumnValueToBeInSet(columnName: string, values: seq<Value>) returns (validator: PolarsDataFrameValidator)
      ensures validator == this
    {
      validator := this;
    }

    method ExpectColumnToBeOfType(columnName: string, columnType: DType) returns (validator: PolarsDataFrameValidator)
      ensures validator == this
    {
      validator := this;
    }
  }
}

=== FILE: py_text.dfy ===
/**
 * The Python text renderings the validators store in their ledgers:
 * `str`/`repr` of the argument values, the `f"{x=}"` self-documenting
 * form, the `repr` of a keyword-argument dict, and the decimal count in
 * an error message.
 */
module PyText {

  function DigitChar(d: nat): (c: char)
    requires d < 10
    ensures '0' <= c <= '9'
  {
    "0123456789"[d]
  }

  function DigitValue(c: char): nat
  {
    if '0' <= c <= '9' then (c as int - '0' as int) as nat else 0
  }

  /** `str(n)` for a non-negative Python int. */
  function NatToString(n: nat): (s: string)
    ensures |s| > 0
    decreases n
  {
    if n < 10 then [DigitChar(n)] else NatToString(n / 10) + [DigitChar(n % 10)]
  }

  /** `int(s)` for a string of decimal digits. */
  function ParseNat(s: string): nat
  {
    if s == [] then 0 else ParseNat(s[..|s| - 1]) * 10 + DigitValue(s[|s| - 1])
  }

  lemma DigitRoundTrip(d: nat)
    requires d < 10
    ensures DigitValue(DigitChar(d)) == d
  {
  }

  /** Decimal rendering loses nothing: the number can be read back. */
  lemma {:induction false} ParseNatToString(n: nat)
    ensures ParseNat(NatToString(n)) == n
    decreases n
  {
    var s := NatToString(n);
    if n < 10 {
      DigitRoundTrip(n);
      assert s[..|s| - 1] == [];
    } else {
      ParseNatToString(n / 10);
      DigitRoundTrip(n % 10);
      assert s[..|s| - 1] == NatToString(n / 10);
    }
  }

  /** `repr(i)` (equally `str(i)`) for a Python int. */
  function IntRepr(i: int): string
  {
    if i < 0 then "-" + NatToString(-i) else NatToString(i)
  }

  /** `repr(b)` for a Python bool. */
  function BoolRepr(b: bool): string
  {
    if b then "True" else "False"
  }

  /** `repr(s)` for a Python str without quote characters or escapes in it. */
  function StrRepr(s: string): string
  {
    "'" + s + "'"
  }

  /** The items joined with ", ", as Python's containers print them. */
  function JoinComma(items: seq<string>): string
  {
    if items == [] then ""
    else if |items| == 1 then items[0]
    else items[0] + ", " + JoinComma(items[1..])
  }

  /** `repr(list)` of already rendered items. */
  function ListRepr(items: seq<string>): string
  {
    "[" + JoinComma(items) + "]"
  }

  /** `f"{kwargs}"`: the repr of a keyword-argument dict, keys in call order. */
  function KwargsRepr(kwargs: seq<(string, string)>): string
  {
    "{" + JoinComma(seq(|kwargs|, i requires 0 <= i < |kwargs| => StrRepr(kwargs[i].0) + ": " + kwargs[i].1)) + "}"
  }

  /** A two-entry keyword dict prints its entries joined by a comma. */
  lemma KwargsReprPair(k1: string, v1: string, k2: string, v2: string)
    ensures KwargsRepr([(k1, v1), (k2, v2)]) == "{'" + k1 + "': " + v1 + ", '" + k2 + "': " + v2 + "}"
  {
    var kw := [(k1, v1), (k2, v2)];
    var items := seq(|kw|, i requires 0 <= i < |kw| => StrRepr(kw[i].0) + ": " + kw[i].1);
    assert items == [StrRepr(k1) + ": " + v1, StrRepr(k2) + ": " + v2];
    assert items[1..] == [items[1]];
    assert JoinComma(items) == StrRepr(k1) + ": " + v1 + ", " + (StrRepr(k2) + ": " + v2);
  }

  /** A three-entry keyword dict prints its entries joined by commas. */
  lemma KwargsReprTriple(k1: string, v1: string, k2: string, v2: string, k3: string, v3: string)
    ensures KwargsRepr([(k1, v1), (k2, v2), (k3, v3)])
      == "{'" + k1 + "': " + v1 + ", '" + k2 + "': " + v2 + ", '" + k3 + "': " + v3 + "}"
  {
    var kw := [(k1, v1), (k2, v2), (k3, v3)];
    var items := seq(|kw|, i requires 0 <= i < |kw| => StrRepr(kw[i].0) + ": " + kw[i].1);
    assert items == [StrRepr(k1) + ": " + v1, StrRepr(k2) + ": " + v2, StrRepr(k3) + ": " + v3];
    assert items[1..] == [items[1], items[2]];
    assert items[1..][1..] == [items[2]];
    assert JoinComma(items[1..]) == StrRepr(k2) + ": " + v2 + ", " + (StrRepr(k3) + ": " + v3);
    assert JoinComma(items) == StrRepr(k1) + ": " + v1 + ", " + (StrRepr(k2) + ": " + v2 + ", " + (StrRepr(k3) + ": " + v3));
  }

  /** `f"{name=}"`: the name, an equals sign and the repr of the value. */
  function SelfDoc(name: string, valueRepr: string): string
  {
    name + "=" + valueRepr
  }
}

=== FILE: results.dfy ===
/**
 * The result ledger shared by both validator shapes: one `ValidationResult`
 * per evaluated expectation, the two error kinds a caller can see, the
 * check behind `throw_error_if_invalid`, and the order `show_results`
 * prints the ledger in.
 */
module Results {
  import opened Wrappers
  import opened PyText
  import StringOrder

  /** One ledger entry; `failRows` is `None` for rules without row-level failures. */
  datatype ValidationResult = ValidationResult(
    columnName: string,
    expectationName: string,
    expectationArgs: string,
    result: bool,
    failRows: Option<nat>)

  /** The field `show_results` fills with `fill_null("")`, as named in the dumped entries. */
  const FailRowsColumn := "fail_rows"

  /** The validators' own exception, with the two messages the source raises it with. */
  datatype DataValidationError = NotStringType(column: string) | ValidationFailed(count: nat) {
    /** The text the exception carries; the column or the count can be read back from it. */
    function Message(): (m: string)
      ensures NotStringType? ==>
        |NotStringPrefix| + |NotStringSuffix| <= |m| && m[|NotStringPrefix|..|m| - |NotStringSuffix|] == column
      ensures ValidationFailed? ==>
        |FailedPrefix| + |FailedSuffix| < |m| && ParseNat(m[|FailedPrefix|..|m| - |FailedSuffix|]) == count
    {
      match this
      case NotStringType(c) =>
        var m := NotStringPrefix + c + NotStringSuffix;
        assert m[|NotStringPrefix|..|m| - |NotStringSuffix|] == c;
        m
      case ValidationFailed(k) =>
        var m := FailedPrefix + NatToString(k) + FailedSuffix;
        assert m[|FailedPrefix|..|m| - |FailedSuffix|] == NatToString(k);
        ParseNatToString(k);
        m
    }
  }

  const NotStringPrefix := "Column '"
  const NotStringSuffix := "' is not of string type"
  const FailedPrefix := "Validation failed for "
  const FailedSuffix := " expectations"

  /** The two messages never coincide, and each names its own column or count. */
  lemma MessageDeterminesError(e1: DataValidationError, e2: DataValidationError)
    requires e1.Message() == e2.Message()
    ensures e1 == e2
  {
    MessageFirstChar(e1);
    MessageFirstChar(e2);
  }

  lemma MessageFirstChar(e: DataValidationError)
    ensures |e.Message()| > 0 && e.Message()[0] == if e.NotStringType? then 'C' else 'V'
  {
  }

  /** What an expectation call or `throw_error_if_invalid` can raise. */
  datatype Error =
    | DataValidation(err: DataValidationError)
      /** Polars: the named column is not in the frame. */
    | ColumnNotFound(name: string)
      /** Polars: a comparison or membership test between different dtypes. */
    | InvalidComparison
      /** Polars: `insert_column` with a name the frame already has. */
    | DuplicateColumn(name: string)

  /** The failure message states the number of failed expectations, and it can be read back. */
  lemma FailureMessageReportsCount(k: nat)
    ensures var m := ValidationFailed(k).Message();
      && |FailedPrefix| + |FailedSuffix| < |m|
      && ParseNat(m[|FailedPrefix|..|m| - |FailedSuffix|]) == k
  {
    var m := ValidationFailed(k).Message();
    assert m[|FailedPrefix|..|m| - |FailedSuffix|] == NatToString(k);
    ParseNatToString(k);
  }

  /** The entries whose `result` is false, in ledger order. */
  function FailedResults(results: seq<ValidationResult>): seq<ValidationResult>
  {
    if results == [] then []
    else
      var last := results[|results| - 1];
      FailedResults(results[..|results| - 1]) + if last.result then [] else [last]
  }

  /**
   * Every false entry is collected as often as it occurs and no true one is,
   * so the failure count is the number of false entries.
   */
  lemma {:induction false} FailedResultsCountsEveryFalseEntry(results: seq<ValidationResult>)
    ensures forall r :: multiset(FailedResults(results))[r] == if r.result then 0 else multiset(results)[r]
  {
    if results != [] {
      var init := results[..|results| - 1];
      FailedResultsCountsEveryFalseEntry(init);
      assert results == init + [results[|results| - 1]];
      assert multiset(results) == multiset(init) + multiset{results[|results| - 1]};
    }
  }

  /** The failed entries are exactly the ledger's false entries. */
  lemma {:induction false} FailedResultsAreTheFalseOnes(results: seq<ValidationResult>)
    ensures forall r :: r in FailedResults(results) <==> r in results && !r.result
    ensures FailedResults(results) == [] <==> forall i :: 0 <= i < |results| ==> results[i].result
  {
    if results != [] {
      var init := results[..|results| - 1];
      FailedResultsAreTheFalseOnes(init);
      assert results == init + [results[|results| - 1]];
      if FailedResults(init) != [] {
        var r :| r in FailedResults(init);
        var i :| 0 <= i < |init| && init[i] == r;
        assert results[i] == r;
      }
    }
  }

  /** The list comprehension of `throw_error_if_invalid`: the false entries, in order. */
  method CollectFailures(results: seq<ValidationResult>) returns (failures: seq<ValidationResult>)
    ensures failures == FailedResults(results)
  {
    failures := [];
    var i := 0;
    while i < |results|
      invariant 0 <= i <= |results|
      invariant failures == FailedResults(results[..i])
    {
      assert results[..i + 1][..i] == results[..i];
      if !results[i].result {
        failures := failures + [results[i]];
      }
      i := i + 1;
    }
    assert results[..i] == results;
  }

  /**
   * `throw_error_if_invalid`: raises `DataValidationError("Validation failed
   * for k expectations")` when k >= 1 entries are false, and does nothing otherwise.
   */
  method RaiseIfAnyFailed(results: seq<ValidationResult>) returns (outcome: Outcome<Error>)
    ensures outcome.Pass? <==> forall i :: 0 <= i < |results| ==> results[i].result
    ensures outcome.Fail? ==>
      && outcome.error == DataValidation(ValidationFailed(|FailedResults(results)|))
      && |FailedResults(results)| >= 1
  {
    var failures := CollectFailures(results);
    FailedResultsAreTheFalseOnes(results);
    if failures != [] {
      outcome := Fail(DataValidation(ValidationFailed(|failures|)));
    } else {
      outcome := Pass;
    }
  }

  /** The rows an entry contributed to the failure ledger (none for `fail_rows = None`). */
  function FailRowCount(r: ValidationResult): nat
  {
    r.failRows.GetOr(0)
  }

  /** The sum of `fail_rows` over the ledger, absent counts as zero. */
  function TotalFailRows(results: seq<ValidationResult>): nat
  {
    if results == [] then 0
    else TotalFailRows(results[..|results| - 1]) + FailRowCount(results[|results| - 1])
  }

  lemma TotalFailRowsAppend(results: seq<ValidationResult>, r: ValidationResult)
    ensures TotalFailRows(results + [r]) == TotalFailRows(results) + FailRowCount(r)
  {
    assert (results + [r])[..|results|] == results;
  }

  /** Every entry of an evaluating rule (one that reports `fail_rows`) passed. */
  predicate AllEvaluatedPassed(results: seq<ValidationResult>)
  {
    forall i :: 0 <= i < |results| && results[i].failRows.Some? ==> results[i].result
  }

  lemma AllEvaluatedPassedAppend(results: seq<ValidationResult>, r: ValidationResult)
    ensures AllEvaluatedPassed(results + [r]) <==> AllEvaluatedPassed(results) && (r.failRows.Some? ==> r.result)
  {
    var extended := results + [r];
    if AllEvaluatedPassed(results) && (r.failRows.Some? ==> r.result) {
      forall i | 0 <= i < |extended| && extended[i].failRows.Some?
        ensures extended[i].result
      {
        if i < |results| {
          assert extended[i] == results[i];
        }
      }
    }
    if AllEvaluatedPassed(extended) {
      forall i | 0 <= i < |results| && results[i].failRows.Some?
        ensures results[i].result
      {
        assert extended[i] == results[i];
      }
      assert extended[|results|] == r;
    }
  }

  // ---- the order of `show_results`: `sorted(results, key=column_name)`

  predicate SortedByColumn(s: seq<ValidationResult>)
  {
    forall i, j :: 0 <= i < j < |s| ==> StringOrder.AtMost(s[i].columnName, s[j].columnName)
  }

  /** The entries recorded under `name`, in order. */
  function WithColumn(s: seq<ValidationResult>, name: string): seq<ValidationResult>
  {
    if s == [] then []
    else (if s[0].columnName == name then [s[0]] else []) + WithColumn(s[1..], name)
  }

  /** Places `x` before the first entry whose column name is not smaller. */
  function Insert(sorted: seq<ValidationResult>, x: ValidationResult): (r: seq<ValidationResult>)
    ensures multiset(r) == multiset(sorted) + multiset{x}
  {
    if sorted == [] then [x]
    else if StringOrder.AtMost(x.columnName, sorted[0].columnName) then [x] + sorted
    else
      assert sorted == [sorted[0]] + sorted[1..];
      [sorted[0]] + Insert(sorted[1..], x)
  }

  /** A stable sort by column name, as Python's `sorted` with a key. */
  function SortByColumn(s: seq<ValidationResult>): (r: seq<ValidationResult>)
    ensures multiset(r) == multiset(s)
  {
    if s == [] then []
    else
      assert s == [s[0]] + s[1..];
      Insert(SortByColumn(s[1..]), s[0])
  }

  lemma {:induction false} InsertSorted(sorted: seq<ValidationResult>, x: ValidationResult)
    requires SortedByColumn(sorted)
    ensures SortedByColumn(Insert(sorted, x))
  {
    if sorted == [] {
    } else if StringOrder.AtMost(x.columnName, sorted[0].columnName) {
      forall y | y in sorted
        ensures StringOrder.AtMost(x.columnName, y.columnName)
      {
        var k :| 0 <= k < |sorted| && sorted[k] == y;
        if k > 0 {
          StringOrder.AtMostTransitive(x.columnName, sorted[0].columnName, y.columnName);
        }
      }
      PrependSorted(x, sorted);
    } else {
      InsertSorted(sorted[1..], x);
      HeadPrecedesInsert(sorted, x);
      PrependSorted(sorted[0], Insert(sorted[1..], x));
    }
  }

  /** An entry that sorts no later than every entry of a sorted ledger can go in front of it. */
  lemma PrependSorted(first: ValidationResult, s: seq<ValidationResult>)
    requires SortedByColumn(s)
    requires forall y :: y in s ==> StringOrder.AtMost(first.columnName, y.columnName)
    ensures SortedByColumn([first] + s)
  {
    var r := [first] + s;
    forall i, j | 0 <= i < j < |r|
      ensures StringOrder.AtMost(r[i].columnName, r[j].columnName)
    {
      assert r[j] == s[j - 1];
      if i == 0 {
        assert s[j - 1] in s;
      } else {
        assert r[i] == s[i - 1];
      }
    }
  }

  /** When `x` goes after the head, every entry after the head still sorts no earlier than it. */
  lemma HeadPrecedesInsert(sorted: seq<ValidationResult>, x: ValidationResult)
    requires sorted != [] && SortedByColumn(sorted)
    requires !StringOrder.AtMost(x.columnName, sorted[0].columnName)
    ensures forall y :: y in Insert(sorted[1..], x) ==> StringOrder.AtMost(sorted[0].columnName, y.columnName)
  {
    var head := sorted[0];
    forall y | y in Insert(sorted[1..], x)
      ensures StringOrder.AtMost(head.columnName, y.columnName)
    {
      assert y in multiset(Insert(sorted[1..], x));
      if y == x {
        StringOrder.AtMostIsNotGreater(x.columnName, head.columnName);
        StringOrder.LessTrichotomy(x.columnName, head.columnName);
      } else {
        assert y in multiset(sorted[1..]);
        var k :| 0 <= k < |sorted[1..]| && sorted[1..][k] == y;
        assert sorted[k + 1] == y;
      }
    }
  }

  /** The entries under `name` in a ledger that starts with `head`. */
  lemma WithColumnCons(head: ValidationResult, tail: seq<ValidationResult>, name: string)
    ensures WithColumn([head] + tail, name) == (if head.columnName == name then [head] else []) + WithColumn(tail, name)
  {
    assert ([head] + tail)[1..] == tail;
  }

  /** Inserting keeps the relative order of the entries under each column name. */
  lemma {:induction false} InsertStable(sorted: seq<ValidationResult>, x: ValidationResult, name: string)
    ensures WithColumn(Insert(sorted, x), name) == (if x.columnName == name then [x] else []) + WithColumn(sorted, name)
  {
    if sorted == [] {
    } else if StringOrder.AtMost(x.columnName, sorted[0].columnName) {
      WithColumnCons(x, sorted, name);
    } else {
      var head := sorted[0];
      var rest := Insert(sorted[1..], x);
      assert Insert(sorted, x) == [head] + rest;
      assert sorted == [head] + sorted[1..];
      var tail := WithColumn(sorted[1..], name);
      InsertStable(sorted[1..], x, name);
      WithColumnCons(head, rest, name);
      WithColumnCons(head, sorted[1..], name);
      if x.columnName == name {
        assert head.columnName != name;
        assert WithColumn(Insert(sorted, x), name) == WithColumn(rest, name) == [x] + tail;
        assert WithColumn(sorted, name) == tail;
      } else {
        var kept := if head.columnName == name then [head] else [];
        assert WithColumn(rest, name) == tail;
        assert WithColumn(Insert(sorted, x), name) == kept + tail == WithColumn(sorted, name);
      }
    }
  }

  /** `show_results` lists the entries in ascending column-name order. */
  lemma {:induction false} SortByColumnSorted(s: seq<ValidationResult>)
    ensures SortedByColumn(SortByColumn(s))
  {
    if s != [] {
      SortByColumnSorted(s[1..]);
      InsertSorted(SortByColumn(s[1..]), s[0]);
    }
  }

  /** Entries with equal column names keep their invocation order. */
  lemma {:induction false} SortByColumnStable(s: seq<ValidationResult>, name: string)
    ensures WithColumn(SortByColumn(s), name) == WithColumn(s, name)
  {
    if s != [] {
      SortByColumnStable(s[1..], name);
      InsertStable(SortByColumn(s[1..]), s[0], name);
    }
  }

  /** The rows `show_results` prints: the whole ledger, sorted by column name, stably. */
  method ShowResults(results: seq<ValidationResult>) returns (shown: seq<ValidationResult>)
    ensures SortedByColumn(shown)
    ensures multiset(shown) == multiset(results)
    ensures forall name :: WithColumn(shown, name) == WithColumn(results, name)
  {
    shown := SortByColumn(results);
    SortByColumnSorted(results);
    forall name
      ensures WithColumn(shown, name) == WithColumn(results, name)
    {
      SortByColumnStable(results, name);
    }
  }
}

=== FILE: scenarios.dfy ===
/**
 * The repository's test cases, stated against the model: the verdicts and
 * the failing rows the tests expect of each rule, and the results a chain
 * of existence checks leaves behind.
 */
module Scenarios {
  import opened Wrappers
  import opened DataFrames
  import opened Results
  import opened Expectations
  import ValidatorFrame
  import PolarsValidator

  function I(x: int): Option<Value>
  {
    Some(IntVal(x))
  }

  function S(s: string): Option<Value>
  {
    Some(StrVal(s))
  }

  const Null: Option<Value> := None

  const IntColumns := [Column("a", IntType), Column("b", IntType), Column("c", IntType)]

  /** Column lookups in the three-column frames the tests build. */
  lemma LookupThreeColumns(ta: DType, tb: DType, tc: DType)
    ensures var cols := [Column("a", ta), Column("b", tb), Column("c", tc)];
      Lookup(cols, "a") == Some(0) && Lookup(cols, "b") == Some(1) && Lookup(cols, "c") == Some(2)
  {
    var cols := [Column("a", ta), Column("b", tb), Column("c", tc)];
    assert cols[1..] == [Column("b", tb), Column("c", tc)];
    assert cols[1..][1..] == [Column("c", tc)];
    assert Lookup(cols[1..][1..], "c") == Some(0);
    assert Lookup(cols[1..], "c") == Some(1);
  }

  /** A filter over three rows that keeps every row. */
  lemma FilterKeepsAllThree(rows: seq<Row>, keep: Row -> bool)
    requires |rows| == 3 && keep(rows[0]) && keep(rows[1]) && keep(rows[2])
    ensures FilterRows(rows, keep) == rows
  {
    var last := rows[1..][1..];
    assert last[1..] == [];
    assert FilterRows(last, keep) == last;
    assert FilterRows(rows[1..], keep) == [rows[1]] + last == rows[1..];
    assert [rows[0]] + rows[1..] == rows;
  }

  /** A filter over three rows that keeps none of them. */
  lemma FilterKeepsNoneOfThree(rows: seq<Row>, keep: Row -> bool)
    requires |rows| == 3 && !keep(rows[0]) && !keep(rows[1]) && !keep(rows[2])
    ensures FilterRows(rows, keep) == []
  {
    var last := rows[1..][1..];
    assert last[1..] == [];
    assert FilterRows(last, keep) == [];
    assert FilterRows(rows[1..], keep) == [];
  }

  /** A filter over three rows that keeps only the first. */
  lemma FilterKeepsFirstOfThree(rows: seq<Row>, keep: Row -> bool)
    requires |rows| == 3 && keep(rows[0]) && !keep(rows[1]) && !keep(rows[2])
    ensures FilterRows(rows, keep) == rows[..1]
  {
    var last := rows[1..][1..];
    assert last[1..] == [];
    assert FilterRows(last, keep) == [];
    assert FilterRows(rows[1..], keep) == [];
    assert [rows[0]] + [] == rows[..1];
  }

  /** A filter over three rows that keeps all but the first. */
  lemma FilterKeepsLastTwoOfThree(rows: seq<Row>, keep: Row -> bool)
    requires |rows| == 3 && !keep(rows[0]) && keep(rows[1]) && keep(rows[2])
    ensures FilterRows(rows, keep) == rows[1..]
  {
    var last := rows[1..][1..];
    assert last[1..] == [];
    assert FilterRows(last, keep) == last;
    assert FilterRows(rows[1..], keep) == [rows[1]] + last == rows[1..];
  }

  // ---- uniqueness

  /** The uniqueness rule on a column found at index `j`. */
  lemma UniqueAt(df: DataFrame, name: string, j: nat)
    requires Lookup(df.columns, name) == Some(j)
    ensures Unique(df, name) == Success(Evaluation(|Distinct(ColumnValues(df.rows, j))| == |df.rows|, Duplicates(df.rows, j)))
  {
  }

  const DistinctRows := [[I(1), I(4), I(7)], [I(2), I(5), I(8)], [I(3), I(6), I(9)]]

  lemma DistinctRowsDistinct()
    ensures |Distinct(ColumnValues(DistinctRows, 0))| == 3
  {
    var vals := ColumnValues(DistinctRows, 0);
    assert vals == [I(1), I(2), I(3)];
    assert Distinct(vals) == {I(1), I(2), I(3)};
  }

  lemma DistinctRowsNoDuplicates()
    ensures Duplicates(DistinctRows, 0) == []
  {
    var rows := DistinctRows;
    var keep := row => Occurrences(rows, 0, Cell(row, 0)) > 1;
    assert ColumnValues(rows, 0) == [I(1), I(2), I(3)];
    assert !keep(rows[0]) && !keep(rows[1]) && !keep(rows[2]);
    FilterKeepsNoneOfThree(rows, keep);
  }

  /** A column of three distinct values passes with no flagged row. */
  lemma UniqueDistinctPasses()
    ensures Unique(DataFrame(IntColumns, DistinctRows), "a") == Success(Evaluation(true, []))
  {
    LookupThreeColumns(IntType, IntType, IntType);
    UniqueAt(DataFrame(IntColumns, DistinctRows), "a", 0);
    DistinctRowsDistinct();
    DistinctRowsNoDuplicates();
  }

  const RepeatElsewhereRows := [[I(1), I(4), I(7)], [I(2), I(5), I(8)], [I(3), I(6), I(8)]]

  lemma RepeatElsewhereDistinct()
    ensures |Distinct(ColumnValues(RepeatElsewhereRows, 1))| == 3
  {
    var vals := ColumnValues(RepeatElsewhereRows, 1);
    assert vals == [I(4), I(5), I(6)];
    assert Distinct(vals) == {I(4), I(5), I(6)};
  }

  lemma RepeatElsewhereNoDuplicates()
    ensures Duplicates(RepeatElsewhereRows, 1) == []
  {
    var rows := RepeatElsewhereRows;
    var keep := row => Occurrences(rows, 1, Cell(row, 1)) > 1;
    assert ColumnValues(rows, 1) == [I(4), I(5), I(6)];
    assert !keep(rows[0]) && !keep(rows[1]) && !keep(rows[2]);
    FilterKeepsNoneOfThree(rows, keep);
  }

  /** A repeat in another column does not affect the column checked. */
  lemma UniqueIgnoresOtherColumns()
    ensures Unique(DataFrame(IntColumns, RepeatElsewhereRows), "b") == Success(Evaluation(true, []))
  {
    LookupThreeColumns(IntType, IntType, IntType);
    UniqueAt(DataFrame(IntColumns, RepeatElsewhereRows), "b", 1);
    RepeatElsewhereDistinct();
    RepeatElsewhereNoDuplicates();
  }

  const RepeatedRows := [[I(1), I(4), I(8)], [I(2), I(5), I(8)], [I(3), I(6), I(8)]]

  lemma RepeatedRowsDistinct()
    ensures |Distinct(ColumnValues(RepeatedRows, 2))| == 1
  {
    var vals := ColumnValues(RepeatedRows, 2);
    assert vals == [I(8), I(8), I(8)];
    assert Distinct(vals) == {I(8)};
  }

  lemma RepeatedRowsAllDuplicates()
    ensures Duplicates(RepeatedRows, 2) == RepeatedRows
  {
    var rows := RepeatedRows;
    var keep := row => Occurrences(rows, 2, Cell(row, 2)) > 1;
    assert ColumnValues(rows, 2) == [I(8), I(8), I(8)];
    assert keep(rows[0]) && keep(rows[1]) && keep(rows[2]);
    FilterKeepsAllThree(rows, keep);
  }

  /** A column holding one value three times fails, and all three rows are flagged. */
  lemma UniqueAllRepeatedFail()
    ensures Unique(DataFrame(IntColumns, RepeatedRows), "c") == Success(Evaluation(false, RepeatedRows))
  {
    LookupThreeColumns(IntType, IntType, IntType);
    UniqueAt(DataFrame(IntColumns, RepeatedRows), "c", 2);
    RepeatedRowsDistinct();
    RepeatedRowsAllDuplicates();
  }

  const LoneNullRows := [[I(1), I(4), I(7)], [I(2), I(5), I(8)], [Null, I(6), I(8)]]

  lemma LoneNullRowsDistinct()
    ensures |Distinct(ColumnValues(LoneNullRows, 0))| == 3
  {
    var vals := ColumnValues(LoneNullRows, 0);
    assert vals == [I(1), I(2), Null];
    assert Distinct(vals) == {I(1), I(2), Null};
  }

  lemma LoneNullRowsNoDuplicates()
    ensures Duplicates(LoneNullRows, 0) == []
  {
    var rows := LoneNullRows;
    var keep := row => Occurrences(rows, 0, Cell(row, 0)) > 1;
    assert ColumnValues(rows, 0) == [I(1), I(2), Null];
    assert !keep(rows[0]) && !keep(rows[1]) && !keep(rows[2]);
    FilterKeepsNoneOfThree(rows, keep);
  }

  /** A single null among distinct values is itself unique: the column passes. */
  lemma UniqueLoneNullPasses()
    ensures Unique(DataFrame(IntColumns, LoneNullRows), "a") == Success(Evaluation(true, []))
  {
    LookupThreeColumns(IntType, IntType, IntType);
    UniqueAt(DataFrame(IntColumns, LoneNullRows), "a", 0);
    LoneNullRowsDistinct();
    LoneNullRowsNoDuplicates();
  }

  const TwoNullRows := [[I(1), I(4), I(7)], [Null, I(5), I(8)], [Null, I(6), I(8)]]

  lemma TwoNullRowsDistinct()
    ensures |Distinct(ColumnValues(TwoNullRows, 0))| == 2
  {
    var vals := ColumnValues(TwoNullRows, 0);
    assert vals == [I(1), Null, Null];
    assert Distinct(vals) == {I(1), Null};
  }

  lemma TwoNullRowsDuplicates()
    ensures Duplicates(TwoNullRows, 0) == TwoNullRows[1..]
  {
    var rows := TwoNullRows;
    var keep := row => Occurrences(rows, 0, Cell(row, 0)) > 1;
    assert ColumnValues(rows, 0) == [I(1), Null, Null];
    assert !keep(rows[0]) && keep(rows[1]) && keep(rows[2]);
    FilterKeepsLastTwoOfThree(rows, keep);
  }

  /** Two nulls count as the same value: the column fails and both null rows are flagged. */
  lemma UniqueNullsCompareEqual()
    ensures Unique(DataFrame(IntColumns, TwoNullRows), "a") == Success(Evaluation(false, TwoNullRows[1..]))
  {
    LookupThreeColumns(IntType, IntType, IntType);
    UniqueAt(DataFrame(IntColumns, TwoNullRows), "a", 0);
    TwoNullRowsDistinct();
    TwoNullRowsDuplicates();
  }

  // ---- membership

  /** The membership rule on a column found at index `j`, with values of the column's type. */
  lemma InSetAt(df: DataFrame, name: string, values: seq<Value>, j: nat)
    requires Lookup(df.columns, name) == Some(j)
    requires forall k :: 0 <= k < |values| ==> KindOf(values[k]) == df.columns[j].dtype
    ensures InSet(df, name, values).Success?
    ensures InSet(df, name, values).value.failing == NotInSet(df.rows, j, values)
  {
  }

  const SevenEightNineRows := [[I(1), I(4), I(7)], [I(2), I(5), I(8)], [I(3), I(6), I(9)]]

  lemma SevenOutsideEightNineZero()
    ensures NotInSet(SevenEightNineRows, 2, [IntVal(8), IntVal(9), IntVal(0)]) == SevenEightNineRows[..1]
  {
    var rows := SevenEightNineRows;
    var values := [IntVal(8), IntVal(9), IntVal(0)];
    var keep := row => Cell(row, 2).Some? && Cell(row, 2).value !in values;
    assert keep(rows[0]) && !keep(rows[1]) && !keep(rows[2]);
    FilterKeepsFirstOfThree(rows, keep);
  }

  /** Of 7, 8, 9 only 7 lies outside [8, 9, 0]: one failing row. */
  lemma InSetFailOne()
    ensures InSet(DataFrame(IntColumns, SevenEightNineRows), "c", [IntVal(8), IntVal(9), IntVal(0)])
      == Success(Evaluation(false, SevenEightNineRows[..1]))
  {
    var df := DataFrame(IntColumns, SevenEightNineRows);
    var values := [IntVal(8), IntVal(9), IntVal(0)];
    LookupThreeColumns(IntType, IntType, IntType);
    InSetAt(df, "c", values, 2);
    InSetVerdict(df, "c", values);
    SevenOutsideEightNineZero();
  }

  lemma AllOutsideOneTwoThree()
    ensures NotInSet(SevenEightNineRows, 2, [IntVal(1), IntVal(2), IntVal(3)]) == SevenEightNineRows
  {
    var rows := SevenEightNineRows;
    var values := [IntVal(1), IntVal(2), IntVal(3)];
    var keep := row => Cell(row, 2).Some? && Cell(row, 2).value !in values;
    assert keep(rows[0]) && keep(rows[1]) && keep(rows[2]);
    FilterKeepsAllThree(rows, keep);
  }

  /** None of 7, 8, 9 lies in [1, 2, 3]: every row fails. */
  lemma InSetFailMany()
    ensures InSet(DataFrame(IntColumns, SevenEightNineRows), "c", [IntVal(1), IntVal(2), IntVal(3)])
      == Success(Evaluation(false, SevenEightNineRows))
  {
    var df := DataFrame(IntColumns, SevenEightNineRows);
    var values := [IntVal(1), IntVal(2), IntVal(3)];
    LookupThreeColumns(IntType, IntType, IntType);
    InSetAt(df, "c", values, 2);
    InSetVerdict(df, "c", values);
    AllOutsideOneTwoThree();
  }

  lemma NoneOutsideOneTwoThree()
    ensures NotInSet(SevenEightNineRows, 0, [IntVal(1), IntVal(2), IntVal(3)]) == []
  {
    var rows := SevenEightNineRows;
    var values := [IntVal(1), IntVal(2), IntVal(3)];
    var keep := row => Cell(row, 0).Some? && Cell(row, 0).value !in values;
    assert !keep(rows[0]) && !keep(rows[1]) && !keep(rows[2]);
    FilterKeepsNoneOfThree(rows, keep);
  }

  /** 1, 2, 3 all lie in [1, 2, 3]: the column passes with no failing row. */
  lemma InSetPass()
    ensures InSet(DataFrame(IntColumns, SevenEightNineRows), "a", [IntVal(1), IntVal(2), IntVal(3)])
      == Success(Evaluation(true, []))
  {
    var df := DataFrame(IntColumns, SevenEightNineRows);
    var values := [IntVal(1), IntVal(2), IntVal(3)];
    LookupThreeColumns(IntType, IntType, IntType);
    InSetAt(df, "a", values, 0);
    InSetVerdict(df, "a", values);
    NoneOutsideOneTwoThree();
  }

  const MixedColumns := [Column("a", IntType), Column("b", StringType), Column("c", IntType)]

  const MixedRows := [[I(1), S("4"), I(7)], [I(2), S("5"), I(8)], [I(3), S("6"), I(9)]]

  lemma NoneOutsideFourFiveSix()
    ensures NotInSet(MixedRows, 1, [StrVal("4"), StrVal("5"), StrVal("6")]) == []
  {
    var rows := MixedRows;
    var values := [StrVal("4"), StrVal("5"), StrVal("6")];
    var keep := row => Cell(row, 1).Some? && Cell(row, 1).value !in values;
    assert !keep(rows[0]) && !keep(rows[1]) && !keep(rows[2]);
    FilterKeepsNoneOfThree(rows, keep);
  }

  /** "4", "5", "6" all lie in ["4", "5", "6"]: a String column passes too. */
  lemma InSetStringPass()
    ensures InSet(DataFrame(MixedColumns, MixedRows), "b", [StrVal("4"), StrVal("5"), StrVal("6")])
      == Success(Evaluation(true, []))
  {
    var df := DataFrame(MixedColumns, MixedRows);
    var values := [StrVal("4"), StrVal("5"), StrVal("6")];
    LookupThreeColumns(IntType, StringType, IntType);
    InSetAt(df, "b", values, 1);
    InSetVerdict(df, "b", values);
    NoneOutsideFourFiveSix();
  }

  /** A string set against an Int column is an invalid comparison. */
  lemma InSetKindMismatch()
    ensures InSet(DataFrame(IntColumns, SevenEightNineRows), "a", [StrVal("1")]) == Failure(InvalidComparison)
  {
    LookupThreeColumns(IntType, IntType, IntType);
    var values := [StrVal("1")];
    assert KindOf(values[0]) == StringType;
  }

  // ---- string length

  /** The length rule on a String column found at index `j`. */
  lemma LengthAt(df: DataFrame, name: string, length: int, j: nat)
    requires Lookup(df.columns, name) == Some(j)
    requires df.columns[j].dtype == StringType
    ensures LengthGreaterThan(df, name, length).Success?
    ensures LengthGreaterThan(df, name, length).value.failing == NotLongerThan(df.rows, j, length)
  {
  }

  const StringColumns := [Column("a", StringType), Column("b", StringType), Column("c", StringType)]

  const WordRows := [[S("a"), S("a"), S("one")], [S("b"), S("aa"), S("two")], [S("c"), S("aaa"), S("three")]]

  lemma OneShortWord()
    ensures NotLongerThan(WordRows, 1, 1) == WordRows[..1]
  {
    var rows := WordRows;
    var keep := row => CharLength(Cell(row, 1)).Some? && CharLength(Cell(row, 1)).value <= 1;
    assert keep(rows[0]) && !keep(rows[1]) && !keep(rows[2]);
    FilterKeepsFirstOfThree(rows, keep);
  }

  /** "a", "aa", "aaa" against length 1: only "a" fails. */
  lemma LengthFailOne()
    ensures LengthGreaterThan(DataFrame(StringColumns, WordRows), "b", 1) == Success(Evaluation(false, WordRows[..1]))
  {
    var df := DataFrame(StringColumns, WordRows);
    LookupThreeColumns(StringType, StringType, StringType);
    LengthAt(df, "b", 1, 1);
    LengthVerdict(df, "b", 1);
    OneShortWord();
  }

  lemma AllShortWords()
    ensures NotLongerThan(WordRows, 1, 5) == WordRows
  {
    var rows := WordRows;
    var keep := row => CharLength(Cell(row, 1)).Some? && CharLength(Cell(row, 1)).value <= 5;
    assert keep(rows[0]) && keep(rows[1]) && keep(rows[2]);
    FilterKeepsAllThree(rows, keep);
  }

  /** "a", "aa", "aaa" against length 5: all three fail. */
  lemma LengthFailMany()
    ensures LengthGreaterThan(DataFrame(StringColumns, WordRows), "b", 5) == Success(Evaluation(false, WordRows))
  {
    var df := DataFrame(StringColumns, WordRows);
    LookupThreeColumns(StringType, StringType, StringType);
    LengthAt(df, "b", 5, 1);
    LengthVerdict(df, "b", 5);
    AllShortWords();
  }

  lemma NoShortWord()
    ensures NotLongerThan(WordRows, 2, 1) == []
  {
    var rows := WordRows;
    var keep := row => CharLength(Cell(row, 2)).Some? && CharLength(Cell(row, 2)).value <= 1;
    assert !keep(rows[0]) && !keep(rows[1]) && !keep(rows[2]);
    FilterKeepsNoneOfThree(rows, keep);
  }

  lemma NoEmptyWord()
    ensures NotLongerThan(WordRows, 0, 0) == []
  {
    var rows := WordRows;
    var keep := row => CharLength(Cell(row, 0)).Some? && CharLength(Cell(row, 0)).value <= 0;
    assert !keep(rows[0]) && !keep(rows[1]) && !keep(rows[2]);
    FilterKeepsNoneOfThree(rows, keep);
  }

  /** "a", "b", "c" are all longer than zero characters. */
  lemma LengthZeroPass()
    ensures LengthGreaterThan(DataFrame(StringColumns, WordRows), "a", 0) == Success(Evaluation(true, []))
  {
    var df := DataFrame(StringColumns, WordRows);
    LookupThreeColumns(StringType, StringType, StringType);
    LengthAt(df, "a", 0, 0);
    LengthVerdict(df, "a", 0);
    NoEmptyWord();
  }

  /** "one", "two", "three" are all longer than one character. */
  lemma LengthPass()
    ensures LengthGreaterThan(DataFrame(StringColumns, WordRows), "c", 1) == Success(Evaluation(true, []))
  {
    var df := DataFrame(StringColumns, WordRows);
    LookupThreeColumns(StringType, StringType, StringType);
    LengthAt(df, "c", 1, 2);
    LengthVerdict(df, "c", 1);
    NoShortWord();
  }

  /** The length rule on an Int column raises the validators' own error, naming the column. */
  lemma LengthOnIntColumn()
    ensures var r := LengthGreaterThan(DataFrame([Column("a", IntType)], [[I(1)], [I(2)], [I(3)]]), "a", 5);
      && r == Failure(DataValidation(NotStringType("a")))
      && r.error.err.Message() == "Column 'a' is not of string type"
  {
    var df := DataFrame([Column("a", IntType)], [[I(1)], [I(2)], [I(3)]]);
    assert Lookup(df.columns, "a") == Some(0);
    assert LengthGreaterThan(df, "a", 5) == Failure(DataValidation(NotStringType("a")));
    NotStringMessageNamesA();
  }

  /** The "not of string type" message for column a, spelled out. */
  lemma NotStringMessageNamesA()
    ensures NotStringType("a").Message() == "Column 'a' is not of string type"
  {
    var m := NotStringType("a").Message();
    assert m == NotStringPrefix + "a" + NotStringSuffix;
    assert NotStringPrefix + "a" == "Column 'a";
  }

  // ---- existence, chained

  const AbFrame := DataFrame([Column("a", IntType), Column("b", IntType)], [[I(1), I(4)], [I(2), I(5)], [I(3), I(6)]])

  const AbcFrame := DataFrame(IntColumns, [[I(1), I(4), I(7)], [I(2), I(5), I(8)], [I(3), I(6), I(9)]])

  /** Asking a frame holding a, b and c for all three: three entries, all true, and nothing to raise. */
  method AllColumnsExistChain() returns (results: seq<ValidationResult>, outcome: Outcome<Error>)
    ensures |results| == 3
    ensures results[0].result && results[1].result && results[2].result
    ensures outcome == Pass
  {
    assert Names(AbcFrame.columns) == ["a", "b", "c"];
    assert ColumnExists(AbcFrame, "a") && ColumnExists(AbcFrame, "b") && ColumnExists(AbcFrame, "c");
    var validator := new PolarsValidator.PolarsDataFrameValidator(AbcFrame, false);
    var chained := validator.ExpectColumnToExist("a");
    chained := chained.ExpectColumnToExist("b");
    chained := chained.ExpectColumnToExist("c");
    results := validator.validationResults;
    outcome := validator.ThrowErrorIfInvalid();
  }

  /** Three entries of which only the last is false: one failed expectation. */
  lemma OneFailedOfThree(results: seq<ValidationResult>)
    requires |results| == 3 && results[0].result && results[1].result && !results[2].result
    ensures |FailedResults(results)| == 1
  {
    assert FailedResults(results[..2][..1][..0]) == [];
    assert FailedResults(results[..2][..1]) == [];
    assert FailedResults(results[..2]) == [];
    assert FailedResults(results) == [results[2]];
  }

  /**
   * Asking a frame holding only a and b for a, b and c, one call chained on
   * the next: three entries, the first two true and the last false, and
   * raising on the results reports the one failed expectation.
   */
  method ExistenceChain() returns (results: seq<ValidationResult>, outcome: Outcome<Error>)
    ensures |results| == 3
    ensures results[0].result && results[1].result && !results[2].result
    ensures outcome == Fail(DataValidation(ValidationFailed(1)))
  {
    assert Names(AbFrame.columns) == ["a", "b"];
    assert ColumnExists(AbFrame, "a") && ColumnExists(AbFrame, "b") && !ColumnExists(AbFrame, "c");
    var validator := new PolarsValidator.PolarsDataFrameValidator(AbFrame, false);
    var chained := validator.ExpectColumnToExist("a");
    chained := chained.ExpectColumnToExist("b");
    chained := chained.ExpectColumnToExist("c");
    results := validator.validationResults;
    OneFailedOfThree(results);
    outcome := validator.ThrowErrorIfInvalid();
  }

  /**
   * The same chain on `ValidatorDataFrame`: a missing column leaves the
   * validity flag true, yet raising on the results reports the one failed
   * expectation.
   */
  method FrameExistenceChain() returns (results: seq<ValidationResult>, valid: bool, outcome: Outcome<Error>)
    ensures |results| == 3
    ensures results[0].result && results[1].result && !results[2].result
    ensures valid
    ensures outcome == Fail(DataValidation(ValidationFailed(1)))
  {
    assert Names(AbFrame.columns) == ["a", "b"];
    assert ColumnExists(AbFrame, "a") && ColumnExists(AbFrame, "b") && !ColumnExists(AbFrame, "c");
    var validator := new ValidatorFrame.ValidatorDataFrame(AbFrame);
    var chained := validator.ExpectColumnToExist("a");
    chained := chained.ExpectColumnToExist("b");
    chained := chained.ExpectColumnToExist("c");
    results := validator.validationResults;
    OneFailedOfThree(results);
    valid := validator.IsValid();
    outcome := validator.ThrowErrorIfInvalid();
  }

  /**
   * The membership rule driven through a fresh `ValidatorDataFrame`: the
   * flag becomes the verdict, one entry is recorded, and every failing row
   * reaches the failure ledger.
   */
  method InSetOnFreshFrame(df: DataFrame, name: string, values: seq<Value>) returns (valid: bool, results: nat, fails: nat)
    requires df.WellFormed() && !ValidatorFrame.ReservedClash(df.columns)
    requires InSet(df, name, values).Success?
    ensures valid == InSet(df, name, values).value.pass
    ensures results == 1
    ensures fails == |InSet(df, name, values).value.failing|
  {
    var validator := new ValidatorFrame.ValidatorDataFrame(df);
    var outcome := validator.ExpectColumnValueToBeInSet(name, values);
    valid := validator.IsValid();
    results := |validator.validationResults|;
    fails := |validator.validationFails|;
  }

  /** [7, 8, 9] in [8, 9, 0] on the class: the flag falls, one entry, one failing row. */
  method FrameInSetFailOne() returns (valid: bool, results: nat, fails: nat)
    ensures !valid && results == 1 && fails == 1
  {
    var df := DataFrame(IntColumns, SevenEightNineRows);
    var values := [IntVal(8), IntVal(9), IntVal(0)];
    assert Names(df.columns) == ["a", "b", "c"];
    assert df.WellFormed() && !ValidatorFrame.ReservedClash(df.columns);
    InSetFailOne();
    assert InSet(df, "c", values) == Success(Evaluation(false, SevenEightNineRows[..1]));
    valid, results, fails := InSetOnFreshFrame(df, "c", values);
  }

  /** [7, 8, 9] in [1, 2, 3] on the class: the flag falls, one entry, three failing rows. */
  method FrameInSetFailMany() returns (valid: bool, results: nat, fails: nat)
    ensures !valid && results == 1 && fails == 3
  {
    var df := DataFrame(IntColumns, SevenEightNineRows);
    var values := [IntVal(1), IntVal(2), IntVal(3)];
    assert Names(df.columns) == ["a", "b", "c"];
    assert df.WellFormed() && !ValidatorFrame.ReservedClash(df.columns);
    InSetFailMany();
    assert InSet(df, "c", values) == Success(Evaluation(false, SevenEightNineRows));
    valid, results, fails := InSetOnFreshFrame(df, "c", values);
  }

  /** The length rule driven through a fresh `ValidatorDataFrame`. */
  method LengthOnFreshFrame(df: DataFrame, name: string, length: int) returns (valid: bool, results: nat, fails: nat)
    requires df.WellFormed() && !ValidatorFrame.ReservedClash(df.columns)
    requires LengthGreaterThan(df, name, length).Success?
    ensures valid == LengthGreaterThan(df, name, length).value.pass
    ensures results == 1
    ensures fails == |LengthGreaterThan(df, name, length).value.failing|
  {
    var validator := new ValidatorFrame.ValidatorDataFrame(df);
    var outcome := validator.ExpectColumnValueLengthGreaterThan(name, length);
    valid := validator.IsValid();
    results := |validator.validationResults|;
    fails := |validator.validationFails|;
  }

  /** "a", "aa", "aaa" against 1 on the class: the flag falls, one entry, one failing row. */
  method FrameLengthFailOne() returns (valid: bool, results: nat, fails: nat)
    ensures !valid && results == 1 && fails == 1
  {
    var df := DataFrame(StringColumns, WordRows);
    assert Names(df.columns) == ["a", "b", "c"];
    assert df.WellFormed() && !ValidatorFrame.ReservedClash(df.columns);
    LengthFailOne();
    assert LengthGreaterThan(df, "b", 1) == Success(Evaluation(false, WordRows[..1]));
    valid, results, fails := LengthOnFreshFrame(df, "b", 1);
  }

  /** "a", "aa", "aaa" against 5 on the class: the flag falls, one entry, three failing rows. */
  method FrameLengthFailMany() returns (valid: bool, results: nat, fails: nat)
    ensures !valid && results == 1 && fails == 3
  {
    var df := DataFrame(StringColumns, WordRows);
    assert Names(df.columns) == ["a", "b", "c"];
    assert df.WellFormed() && !ValidatorFrame.ReservedClash(df.columns);
    LengthFailMany();
    assert LengthGreaterThan(df, "b", 5) == Success(Evaluation(false, WordRows));
    valid, results, fails := LengthOnFreshFrame(df, "b", 5);
  }

  /** The uniqueness rule driven through a fresh `ValidatorDataFrame`. */
  method UniqueOnFreshFrame(df: DataFrame, name: string) returns (valid: bool, results: nat, fails: nat)
    requires df.WellFormed() && !ValidatorFrame.ReservedClash(df.columns)
    requires Unique(df, name).Success?
    ensures valid == Unique(df, name).value.pass
    ensures results == 1
    ensures fails == |Unique(df, name).value.failing|
  {
    var validator := new ValidatorFrame.ValidatorDataFrame(df);
    var outcome := validator.ExpectColumnToContainUniqueValues(name);
    valid := validator.IsValid();
    results := |validator.validationResults|;
    fails := |validator.validationFails|;
  }

  /** c = [8, 8, 8] on the class: the flag falls, one entry, three failing rows. */
  method FrameUniqueAllRepeatedFail() returns (valid: bool, results: nat, fails: nat)
    ensures !valid && results == 1 && fails == 3
  {
    var df := DataFrame(IntColumns, RepeatedRows);
    assert Names(df.columns) == ["a", "b", "c"];
    assert df.WellFormed() && !ValidatorFrame.ReservedClash(df.columns);
    UniqueAllRepeatedFail();
    assert Unique(df, "c") == Success(Evaluation(false, RepeatedRows));
    valid, results, fails := UniqueOnFreshFrame(df, "c");
  }

  /** a = [1, null, null] on the class: the flag falls, one entry, the two null rows fail. */
  method FrameUniqueNullsCompareEqual() returns (valid: bool, results: nat, fails: nat)
    ensures !valid && results == 1 && fails == 2
  {
    var df := DataFrame(IntColumns, TwoNullRows);
    assert Names(df.columns) == ["a", "b", "c"];
    assert df.WellFormed() && !ValidatorFrame.ReservedClash(df.columns);
    UniqueNullsCompareEqual();
    assert Unique(df, "a") == Success(Evaluation(false, TwoNullRows[1..]));
    valid, results, fails := UniqueOnFreshFrame(df, "a");
  }

  /** `show_results` on a validator with no entries yet raises for the missing `fail_rows` column. */
  method ShowResultsOnFreshValidator() returns (outcome: Result<seq<ValidationResult>, Error>)
    ensures outcome == Failure(ColumnNotFound("fail_rows"))
  {
    var validator := new PolarsValidator.PolarsDataFrameValidator(AbFrame, false);
    outcome := validator.ShowResults();
  }
}

=== FILE: string_order.dfy ===
/** Python's ordering of `str` values: lexicographic comparison by code point. */
module StringOrder {

  /** `a < b` on Python strings. */
  predicate Less(a: string, b: string)
  {
    if |a| == 0 then |b| > 0
    else if |b| == 0 then false
    else if a[0] != b[0] then a[0] < b[0]
    else Less(a[1..], b[1..])
  }

  /** `a <= b` on Python strings. */
  predicate AtMost(a: string, b: string)
  {
    a == b || Less(a, b)
  }

  lemma {:induction false} LessIrreflexive(a: string)
    ensures !Less(a, a)
  {
    if |a| > 0 {
      LessIrreflexive(a[1..]);
    }
  }

  lemma {:induction false} LessTrichotomy(a: string, b: string)
    ensures Less(a, b) || a == b || Less(b, a)
  {
    if |a| > 0 && |b| > 0 && a[0] == b[0] {
      LessTrichotomy(a[1..], b[1..]);
      if a[1..] == b[1..] {
        assert a == [a[0]] + a[1..] && b == [b[0]] + b[1..];
      }
    }
  }

  lemma {:induction false} LessTransitive(a: string, b: string, c: string)
    requires Less(a, b) && Less(b, c)
    ensures Less(a, c)
  {
    if |a| > 0 && |b| > 0 && |c| > 0 && a[0] == b[0] && b[0] == c[0] {
      LessTransitive(a[1..], b[1..], c[1..]);
    }
  }

  lemma LessAsymmetric(a: string, b: string)
    requires Less(a, b)
    ensures !Less(b, a)
  {
    if Less(b, a) {
      LessTransitive(a, b, a);
      LessIrreflexive(a);
    }
  }

  /** `a <= b` is the negation of `b < a`: the order is total. */
  lemma AtMostIsNotGreater(a: string, b: string)
    ensures AtMost(a, b) <==> !Less(b, a)
  {
    LessTrichotomy(a, b);
    LessIrreflexive(a);
    if Less(a, b) {
      LessAsymmetric(a, b);
    }
  }

  lemma AtMostTransitive(a: string, b: string, c: string)
    requires AtMost(a, b) && AtMost(b, c)
    ensures AtMost(a, c)
  {
    if Less(a, b) && Less(b, c) {
      LessTransitive(a, b, c);
    }
  }
}

=== FILE: validator_frame.dfy ===
/**
 * `ValidatorDataFrame`: a frame that validates itself. It owns a result
 * ledger, a failure ledger (the failing rows of every evaluated rule, each
 * with two provenance columns in front) and a validity flag, and every
 * `expect_*` method updates them in place and returns the same object.
 */
module ValidatorFrame {
  import opened Wrappers
  import opened DataFrames
  import opened Results
  import opened Expectations
  import opened PyText

  const ExpectationNameColumn := "expectation_name"
  const ExpectationArgsColumn := "expectation_args"

  /** The two columns the failure ledger has in front of the frame's own. */
  const ProvenanceColumns: seq<Column> := [Column(ExpectationNameColumn, StringType), Column(ExpectationArgsColumn, StringType)]

  /** Inserting the provenance columns fails when the frame already has a column of either name. */
  predicate ReservedClash(columns: seq<Column>)
  {
    ExpectationNameColumn in Names(columns) || ExpectationArgsColumn in Names(columns)
  }

  /**
   * `__add_validation_fail_columns`: the failing rows with the expectation
   * name inserted as column 0 and the rendered arguments as column 1.
   */
  function AddValidationFailColumns(columns: seq<Column>, rows: seq<Row>, expectationName: string, expectationArgs: string)
    : (r: Result<seq<Row>, Error>)
    ensures r.Failure? <==> ReservedClash(columns)
    ensures r.Success? ==>
      && |r.value| == |rows|
      && forall i :: 0 <= i < |rows| ==>
           && |r.value[i]| == |rows[i]| + 2
           && r.value[i][0] == Some(StrVal(expectationName))
           && r.value[i][1] == Some(StrVal(expectationArgs))
           && r.value[i][2..] == rows[i]
  {
    if ExpectationNameColumn in Names(columns) then Failure(DuplicateColumn(ExpectationNameColumn))
    else if ExpectationArgsColumn in Names(columns) then Failure(DuplicateColumn(ExpectationArgsColumn))
    else Success(seq(|rows|, i requires 0 <= i < |rows| =>
      [Some(StrVal(expectationName)), Some(StrVal(expectationArgs))] + rows[i]))
  }

  /** Tagged rows of the frame all have the ledger's schema: provenance columns, then the frame's. */
  lemma TaggedRowsFitLedger(columns: seq<Column>, rows: seq<Row>, expectationName: string, expectationArgs: string)
    requires forall row :: row in rows ==> RowFits(columns, row)
    requires !ReservedClash(columns)
    ensures forall row :: row in AddValidationFailColumns(columns, rows, expectationName, expectationArgs).value ==>
      RowFits(ProvenanceColumns + columns, row)
  {
    var tagged := AddValidationFailColumns(columns, rows, expectationName, expectationArgs).value;
    forall row: Row | row in tagged
      ensures RowFits(ProvenanceColumns + columns, row)
    {
      var i :| 0 <= i < |tagged| && tagged[i] == row;
      assert rows[i] in rows;
      var ledger := ProvenanceColumns + columns;
      forall k | 0 <= k < |row| && row[k].Some?
        ensures KindOf(row[k].value) == ledger[k].dtype
      {
        if k >= 2 {
          assert row[k] == rows[i][k - 2];
        }
      }
    }
  }

  // ---- names and rendered arguments, as each method records them

  const ExistName := "expect_column_to_exist"
  const UniqueName := "expect_column_to_contain_unique_values"
  const GreaterThanName := "expect_column_value_greater_than"
  const InSetName := "expect_column_value_to_be_in_set"
  const LengthName := "expect_column_value_length_greater_than"
  const AGreaterThanBName := "expect_column_a_greater_than_column_b"

  function ValueRepr(v: Value): string
  {
    match v
    case IntVal(i) => IntRepr(i)
    case StrVal(s) => StrRepr(s)
  }

  function ValuesRepr(values: seq<Value>): string
  {
    ListRepr(seq(|values|, i requires 0 <= i < |values| => ValueRepr(values[i])))
  }

  /** `f"{expectation_args}"` of the keyword arguments each rule passes to the ledger. */
  function UniqueLedgerArgs(columnName: string): (r: string)
    ensures r == "{'column_name': '" + columnName + "'}"
  {
    KwargsRepr([("column_name", StrRepr(columnName))])
  }

  function GreaterThanLedgerArgs(columnName: string, value: int, allowNulls: bool): (r: string)
    ensures r == "{'column_name': '" + columnName + "', 'value': " + IntRepr(value) + ", 'allow_nulls': " + BoolRepr(allowNulls) + "}"
  {
    KwargsReprTriple("column_name", StrRepr(columnName), "value", IntRepr(value), "allow_nulls", BoolRepr(allowNulls));
    var name := "{'" + "column_name" + "': " + StrRepr(columnName);
    assert name == "{'column_name': '" + columnName + "'";
    var upToValue := name + ", '" + "value" + "': " + IntRepr(value);
    assert upToValue == "{'column_name': '" + columnName + "', 'value': " + IntRepr(value);
    var upToNulls := upToValue + ", '" + "allow_nulls" + "': " + BoolRepr(allowNulls);
    assert upToNulls == "{'column_name': '" + columnName + "', 'value': " + IntRepr(value) + ", 'allow_nulls': " + BoolRepr(allowNulls);
    KwargsRepr([("column_name", StrRepr(columnName)), ("value", IntRepr(value)), ("allow_nulls", BoolRepr(allowNulls))])
  }

  function AGreaterThanBLedgerArgs(columnA: string, columnB: string): (r: string)
    ensures r == "{'column_a': '" + columnA + "', 'column_b': '" + columnB + "'}"
  {
    KwargsReprPair("column_a", StrRepr(columnA), "column_b", StrRepr(columnB));
    var first := "{'" + "column_a" + "': " + StrRepr(columnA);
    assert first == "{'column_a': '" + columnA + "'";
    var upToB := first + ", '" + "column_b" + "': " + StrRepr(columnB);
    assert upToB == "{'column_a': '" + columnA + "', 'column_b': '" + columnB + "'";
    KwargsRepr([("column_a", StrRepr(columnA)), ("column_b", StrRepr(columnB))])
  }

  function InSetLedgerArgs(columnName: string, values: seq<Value>): (r: string)
    ensures r == "{'column_name': '" + columnName + "', 'values': " + ValuesRepr(values) + "}"
  {
    KwargsReprPair("column_name", StrRepr(columnName), "values", ValuesRepr(values));
    var name := "{'" + "column_name" + "': " + StrRepr(columnName);
    assert name == "{'column_name': '" + columnName + "'";
    var upToValues := name + ", '" + "values" + "': " + ValuesRepr(values);
    assert upToValues == "{'column_name': '" + columnName + "', 'values': " + ValuesRepr(values);
    KwargsRepr([("column_name", StrRepr(columnName)), ("values", ValuesRepr(values))])
  }

  function LengthLedgerArgs(columnName: string, length: int): (r: string)
    ensures r == "{'column_name': '" + columnName + "', 'length': " + IntRepr(length) + "}"
  {
    KwargsReprPair("column_name", StrRepr(columnName), "length", IntRepr(length));
    var name := "{'" + "column_name" + "': " + StrRepr(columnName);
    assert name == "{'column_name': '" + columnName + "'";
    var upToLength := name + ", '" + "length" + "': " + IntRepr(length);
    assert upToLength == "{'column_name': '" + columnName + "', 'length': " + IntRepr(length);
    KwargsRepr([("column_name", StrRepr(columnName)), ("length", IntRepr(length))])
  }

  /** The `expectation_args` f-strings of the result entries. */
  function GreaterThanResultArgs(value: int, allowNulls: bool): (r: string)
    ensures r == "value=" + IntRepr(value) + ", allow_nulls=" + BoolRepr(allowNulls)
  {
    SelfDoc("value", IntRepr(value)) + ", " + SelfDoc("allow_nulls", BoolRepr(allowNulls))
  }

  function AGreaterThanBResultArgs(columnA: string, columnB: string): (r: string)
    ensures r == "column_a='" + columnA + "', column_b='" + columnB + "'"
  {
    SelfDoc("column_a", StrRepr(columnA)) + ", " + SelfDoc("column_b", StrRepr(columnB))
  }

  function InSetResultArgs(values: seq<Value>): (r: string)
    ensures r == "values=" + ValuesRepr(values)
  {
    SelfDoc("values", ValuesRepr(values))
  }

  function LengthResultArgs(length: int): (r: string)
    ensures r == "length=" + IntRepr(length)
  {
    SelfDoc("length", IntRepr(length))
  }

  class ValidatorDataFrame {
    /** The frame's own data; no expectation changes it. */
    const frame: DataFrame
    var validationResults: seq<ValidationResult>
    /** The failure ledger's rows, under `ProvenanceColumns + frame.columns`. */
    var validationFails: seq<Row>
    /** `_is_valid`. */
    var isValidFlag: bool

    /**
     * Every ledger row has the ledger's schema; the ledger holds exactly the
     * rows the results count; a true flag means every recorded evaluation
     * passed, and (when the provenance columns can be inserted) the flag is
     * false exactly when a recorded evaluation failed.
     */
    ghost predicate Valid()
      reads this
    {
      && frame.WellFormed()
      && (forall row :: row in validationFails ==> RowFits(ProvenanceColumns + frame.columns, row))
      && |validationFails| == TotalFailRows(validationResults)
      && (isValidFlag ==> AllEvaluatedPassed(validationResults))
      && (!ReservedClash(frame.columns) ==> (isValidFlag <==> AllEvaluatedPassed(validationResults)))
    }

    constructor (frame: DataFrame)
      requires frame.WellFormed()
      ensures Valid()
      ensures this.frame == frame
      ensures validationResults == [] && validationFails == [] && isValidFlag
    {
      this.frame := frame;
      validationResults := [];
      validationFails := [];
      isValidFlag := true;
    }

    /** Records whether the column exists; no failing rows, the flag is not touched. */
    method ExpectColumnToExist(columnName: string) returns (validator: ValidatorDataFrame)
      requires Valid()
      modifies this
      ensures Valid() && validator == this
      ensures validationResults ==
        old(validationResults) + [ValidationResult(columnName, ExistName, "", ColumnExists(frame, columnName), None)]
      ensures validationFails == old(validationFails) && isValidFlag == old(isValidFlag)
    {
      var entry := ValidationResult(columnName, ExistName, "", ColumnExists(frame, columnName), None);
      TotalFailRowsAppend(validationResults, entry);
      AllEvaluatedPassedAppend(validationResults, entry);
      validationResults := validationResults + [entry];
      validator := this;
    }

    /**
     * Records the uniqueness verdict and its failing rows. A missing column
     * or a clash with the provenance columns raises before anything changes.
     */
    method ExpectColumnToContainUniqueValues(columnName: string) returns (outcome: Result<ValidatorDataFrame, Error>)
      requires Valid()
      modifies this
      ensures Valid()
      ensures match Unique(frame, columnName)
        case Failure(e) => outcome == Failure(e) && unchanged(this)
        case Success(ev) =>
          match AddValidationFailColumns(frame.columns, ev.failing, UniqueName, UniqueLedgerArgs(columnName))
          case Failure(e) => outcome == Failure(e) && unchanged(this)
          case Success(tagged) =>
            && outcome == Success(this)
            && isValidFlag == (old(isValidFlag) && ev.pass)
            && validationFails == old(validationFails) + tagged
            && validationResults ==
                 old(validationResults) + [ValidationResult(columnName, UniqueName, "", ev.pass, Some(|ev.failing|))]
    {
      var ev :- Unique(frame, columnName);
      var tagged :- AddValidationFailColumns(frame.columns, ev.failing, UniqueName, UniqueLedgerArgs(columnName));
      Record(ev, UniqueName, UniqueLedgerArgs(columnName), tagged, ValidationResult(columnName, UniqueName, "", ev.pass, Some(|ev.failing|)));
      outcome := Success(this);
    }

    /**
     * Records the greater-than verdict and its failing rows. `allowNulls`
     * only appears in the rendered arguments. The flag is updated before the
     * provenance columns are inserted, so a clash raises after the flag moved.
     */
    method ExpectColumnValueGreaterThan(columnName: string, value: int, allowNulls: bool)
      returns (outcome: Result<ValidatorDataFrame, Error>)
      requires Valid()
      modifies this
      ensures Valid()
      ensures match GreaterThan(frame, columnName, value)
        case Failure(e) => outcome == Failure(e) && unchanged(this)
        case Success(ev) =>
          && isValidFlag == (old(isValidFlag) && ev.pass)
          && match AddValidationFailColumns(frame.columns, ev.failing, GreaterThanName,
                     GreaterThanLedgerArgs(columnName, value, allowNulls))
             case Failure(e) =>
               outcome == Failure(e) && validationFails == old(validationFails) && validationResults == old(validationResults)
             case Success(tagged) =>
               && outcome == Success(this)
               && validationFails == old(validationFails) + tagged
               && validationResults == old(validationResults) +
                    [ValidationResult(columnName, GreaterThanName,
                       GreaterThanResultArgs(value, allowNulls),
                       ev.pass, Some(|ev.failing|))]
    {
      var ev :- GreaterThan(frame, columnName, value);
      var ledgerArgs := GreaterThanLedgerArgs(columnName, value, allowNulls);
      var tagging := AddValidationFailColumns(frame.columns, ev.failing, GreaterThanName, ledgerArgs);
      if tagging.Failure? {
        // the flag is updated before the provenance columns are inserted
        isValidFlag := isValidFlag && ev.pass;
        return Failure(tagging.error);
      }
      var resultArgs := GreaterThanResultArgs(value, allowNulls);
      Record(ev, GreaterThanName, ledgerArgs, tagging.value, ValidationResult(columnName, GreaterThanName, resultArgs, ev.pass, Some(|ev.failing|)));
      outcome := Success(this);
    }

    /**
     * Records the column comparison under `columnA`. The result entry is
     * named "expect_column_value_greater_than", while the ledger rows carry
     * "expect_column_a_greater_than_column_b".
     */
    method ExpectColumnAGreaterThanColumnB(columnA: string, columnB: string)
      returns (outcome: Result<ValidatorDataFrame, Error>)
      requires Valid()
      modifies this
      ensures Valid()
      ensures match AGreaterThanB(frame, columnA, columnB)
        case Failure(e) => outcome == Failure(e) && unchanged(this)
        case Success(ev) =>
          && isValidFlag == (old(isValidFlag) && ev.pass)
          && match AddValidationFailColumns(frame.columns, ev.failing, AGreaterThanBName,
                     AGreaterThanBLedgerArgs(columnA, columnB))
             case Failure(e) =>
               outcome == Failure(e) && validationFails == old(validationFails) && validationResults == old(validationResults)
             case Success(tagged) =>
               && outcome == Success(this)
               && validationFails == old(validationFails) + tagged
               && validationResults == old(validationResults) +
                    [ValidationResult(columnA, GreaterThanName,
                       AGreaterThanBResultArgs(columnA, columnB),
                       ev.pass, Some(|ev.failing|))]
    {
      var ev :- AGreaterThanB(frame, columnA, columnB);
      var ledgerArgs := AGreaterThanBLedgerArgs(columnA, columnB);
      var tagging := AddValidationFailColumns(frame.columns, ev.failing, AGreaterThanBName, ledgerArgs);
      if tagging.Failure? {
        // the flag is updated before the provenance columns are inserted
        isValidFlag := isValidFlag && ev.pass;
        return Failure(tagging.error);
      }
      var resultArgs := AGreaterThanBResultArgs(columnA, columnB);
      Record(ev, AGreaterThanBName, ledgerArgs, tagging.value, ValidationResult(columnA, GreaterThanName, resultArgs, ev.pass, Some(|ev.failing|)));
      outcome := Success(this);
    }

    /** Records the membership verdict; the failing rows are the non-null non-members. */
    method ExpectColumnValueToBeInSet(columnName: string, values: seq<Value>)
      returns (outcome: Result<ValidatorDataFrame, Error>)
      requires Valid()
      modifies this
      ensures Valid()
      ensures match InSet(frame, columnName, values)
        case Failure(e) => outcome == Failure(e) && unchanged(this)
        case Success(ev) =>
          && isValidFlag == (old(isValidFlag) && ev.pass)
          && match AddValidationFailColumns(frame.columns, ev.failing, InSetName,
                     InSetLedgerArgs(columnName, values))
             case Failure(e) =>
               outcome == Failure(e) && validationFails == old(validationFails) && validationResults == old(validationResults)
             case Success(tagged) =>
               && outcome == Success(this)
               && validationFails == old(validationFails) + tagged
               && validationResults == old(validationResults) +
                    [ValidationResult(columnName, InSetName, InSetResultArgs(values), ev.pass, Some(|ev.failing|))]
    {
      var ev :- InSet(frame, columnName, values);
      var ledgerArgs := InSetLedgerArgs(columnName, values);
      var tagging := AddValidationFailColumns(frame.columns, ev.failing, InSetName, ledgerArgs);
      if tagging.Failure? {
        // the flag is updated before the provenance columns are inserted
        isValidFlag := isValidFlag && ev.pass;
        return Failure(tagging.error);
      }
      var resultArgs := InSetResultArgs(values);
      Record(ev, InSetName, ledgerArgs, tagging.value, ValidationResult(columnName, InSetName, resultArgs, ev.pass, Some(|ev.failing|)));
      outcome := Success(this);
    }

    /**
     * Records the string-length verdict. A column that is not String-typed
     * raises "Column '<c>' is not of string type" before anything changes.
     * The ledger rows are named "expect_column_value_greater_than".
     */
    method ExpectColumnValueLengthGreaterThan(columnName: string, length: int)
      returns (outcome: Result<ValidatorDataFrame, Error>)
      requires Valid()
      modifies this
      ensures Valid()
      ensures match LengthGreaterThan(frame, columnName, length)
        case Failure(e) => outcome == Failure(e) && unchanged(this)
        case Success(ev) =>
          && isValidFlag == (old(isValidFlag) && ev.pass)
          && match AddValidationFailColumns(frame.columns, ev.failing, GreaterThanName,
                     LengthLedgerArgs(columnName, length))
             case Failure(e) =>
               outcome == Failure(e) && validationFails == old(validationFails) && validationResults == old(validationResults)
             case Success(tagged) =>
               && outcome == Success(this)
               && validationFails == old(validationFails) + tagged
               && validationResults == old(validationResults) +
                    [ValidationResult(columnName, LengthName, LengthResultArgs(length), ev.pass, Some(|ev.failing|))]
    {
      var ev :- LengthGreaterThan(frame, columnName, length);
      var ledgerArgs := LengthLedgerArgs(columnName, length);
      var tagging := AddValidationFailColumns(frame.columns, ev.failing, GreaterThanName, ledgerArgs);
      if tagging.Failure? {
        // the flag is updated before the provenance columns are inserted
        isValidFlag := isValidFlag && ev.pass;
        return Failure(tagging.error);
      }
      var resultArgs := LengthResultArgs(length);
      Record(ev, GreaterThanName, ledgerArgs, tagging.value, ValidationResult(columnName, LengthName, resultArgs, ev.pass, Some(|ev.failing|)));
      outcome := Success(this);
    }

    /** The flag update, the ledger concatenation and the result append of one evaluation. */
    method Record(ev: Evaluation, ledgerName: string, ledgerArgs: string, tagged: seq<Row>, entry: ValidationResult)
      requires Valid()
      requires !ReservedClash(frame.columns)
      requires forall row :: row in ev.failing ==> row in frame.rows
      requires tagged == AddValidationFailColumns(frame.columns, ev.failing, ledgerName, ledgerArgs).value
      requires entry.result == ev.pass && entry.failRows == Some(|ev.failing|)
      modifies this
      ensures Valid()
      ensures isValidFlag == (old(isValidFlag) && ev.pass)
      ensures validationFails == old(validationFails) + tagged
      ensures validationResults == old(validationResults) + [entry]
    {
      TaggedRowsFitLedger(frame.columns, ev.failing, ledgerName, ledgerArgs);
      TotalFailRowsAppend(validationResults, entry);
      AllEvaluatedPassedAppend(validationResults, entry);
      isValidFlag := isValidFlag && ev.pass;
      validationFails := validationFails + tagged;
      validationResults := validationResults + [entry];
    }

    /** `is_valid`. */
    function IsValid(): (valid: bool)
      reads this
      requires Valid()
      ensures valid ==> AllEvaluatedPassed(validationResults)
      ensures !ReservedClash(frame.columns) ==> (valid <==> AllEvaluatedPassed(validationResults))
    {
      isValidFlag
    }

    /**
     * Raises with the number of false entries when there is one; it reads the
     * result ledger, so a failed existence check raises though the flag is true.
     */
    method ThrowErrorIfInvalid() returns (outcome: Outcome<Error>)
      requires Valid()
      ensures outcome.Pass? <==> forall i :: 0 <= i < |validationResults| ==> validationResults[i].result
      ensures outcome.Fail? ==> outcome.error == DataValidation(ValidationFailed(|FailedResults(validationResults)|))
      ensures !ReservedClash(frame.columns) && !isValidFlag ==> outcome.Fail?
    {
      outcome := RaiseIfAnyFailed(validationResults);
    }

    /**
     * The entries `show_results` prints. An empty ledger builds a frame with
     * no columns, so the `fail_rows` column the method then fills is missing.
     */
    method ShowResults() returns (outcome: Result<seq<ValidationResult>, Error>)
      ensures outcome.Failure? <==> validationResults == []
      ensures outcome.Failure? ==> outcome.error == ColumnNotFound(FailRowsColumn)
      ensures outcome.Success? ==> SortedByColumn(outcome.value)
      ensures outcome.Success? ==> multiset(outcome.value) == multiset(validationResults)
      ensures outcome.Success? ==> forall name :: WithColumn(outcome.value, name) == WithColumn(validationResults, name)
    {
      if validationResults == [] {
        return Failure(ColumnNotFound(FailRowsColumn));
      }
      var shown := Results.ShowResults(validationResults);
      outcome := Success(shown);
    }

    // ---- unimplemented expectations: they change nothing and return the same object

    method ExpectColumnValueToBeBetween(columnName: string, lowValue: Value, highValue: Value)
      returns (validator: ValidatorDataFrame)
      ensures validator == this
    {
      validator := this;
    }

    method ExpectColumnValueToMatchRegex(columnName: string, pattern: string) returns (validator: ValidatorDataFrame)
      ensures validator == this
    {
      validator := this;
    }

    method ExpectColumnToBeOfType(columnName: string, columnType: DType) returns (validator: ValidatorDataFrame)
      ensures validator == this
    {
      validator := this;
    }
  }
}

=== FILE: wrappers.dfy ===
/** Option, Result and Outcome: the error-carrying shapes used throughout the model. */
module Wrappers {

  datatype Option<+T> = None | Some(value: T) {
    function GetOr(default: T): T {
      match this
      case Some(v) => v
      case None => default
    }
  }

  /** A Python call that either returns a value or raises an exception. */
  datatype Result<+R, +E> = Success(value: R) | Failure(error: E) {
    predicate IsFailure()
    {
      Failure?
    }

    function PropagateFailure<U>(): Result<U, E>
      requires Failure?
    {
      Failure(error)
    }

    function Extract(): R
      requires Success?
    {
      value
    }
  }

  /** A Python call whose only observable outcome is whether it raised. */
  datatype Outcome<+E> = Pass | Fail(error: E)
}
